=== FILE: README.md ===
# lem-in in Dafny

A model of the solver core of lem-in, an ant-farm puzzle solver. Its input
describes an ant count, rooms with a start and an end room, and tunnels
between rooms. Its output is the move log. Every ant must walk from the start
room to the end room, and each line of the log lists the moves of one turn as
tokens `L<ant>-<room>`.

The model follows the program's stages, one module each:

- `Text` models the Go library calls the stages rely on: `strings.Fields`,
  `strings.Split`, `strings.Join`, `strings.HasPrefix`, `strings.TrimPrefix`,
  `strconv.Atoi` and `strconv.Itoa`. `Fields`, `Split` with `Join`, and
  `Atoi` with `Itoa` are each tied down by round-trip lemmas. `Fields` is
  covered for any runs of white space between the words and around them.
  `HasPrefix` and `TrimPrefix` are one-line definitions.
- `Entity` holds the records of `internal/entity/graph.go` (room, tunnel,
  path, farm graph) and the error kinds. `Wrappers` holds `Option` and
  `Result`.
- `Validate` models the line validators: `parseRoom`, `parsePosition`,
  `checkRooms`, `checkPositions` and `CreateGraph`. They run over the
  description already split into lines.
- `Adjacency` models `ParseAdadjacents`, which turns the tunnel list into
  neighbour lists.
- `Paths` models `DepthSearch` and `FindAllPaths`. `DepthSearch` is a
  backtracking search for every simple start-to-end path. `FindAllPaths`
  sorts those paths by length and fails when there is none.
- `Groups` models `SearchPaths` and `MoveAntsToEnd`. `SearchPaths` enumerates
  groups of paths that share no interior room. `MoveAntsToEnd` picks the
  group with the least estimated number of turns.
- `Schedule` models `ResultOutput`. It assigns each ant a path and a start
  turn, collected in a per-ant list, and renders the move log from that
  list. The list is a modelling device: Go uses each ant's pair as soon as
  it is computed, which yields the same log.
- `Pipeline` chains the stages in the order `internal/app/app.go` runs them.

Rooms are values `Room(name, x, y)`. Paths are `seq<Room>`, groups are
`seq<Path>`, and the adjacency is a `map<Room, seq<Room>>`.

The recursive search keeps the path walked so far as an explicit parameter,
the trail. The Go code keeps a map from each room to its parent instead and
rebuilds the path from it. The two agree, because the parent pointers along
the active branch are always current.

Integers are unbounded throughout.

The model follows the code, also where it departs from the usual lem-in
rules:

- The paths are sorted with `sort.Slice`, which is not stable. The model uses
  a stable insertion sort, which is one of the orders `sort.Slice` may
  produce. The contracts claim only the properties every such order shares:
  the result is a permutation of the found paths, and lengths do not
  decrease.
- Room names and coordinates are meant to be unique across the whole graph.
  The code checks only ordinary rooms against each other.
  - The names of ordinary rooms are also checked against the start and end
    rooms already filed.
  - The start and end rooms are filed without any duplicate check. A
    `##start` room may therefore share coordinates with an ordinary room, or
    replace an earlier room of the same name in the name map.
- The room section ends at the first line containing a dash. A room line
  with a negative coordinate therefore ends the room section, and is then
  rejected as a tunnel.
- A malformed tunnel line is reported as "no start room found", the error
  `CreateGraph` returns for it.
- A tunnel given twice, in either orientation, or a tunnel from a room to
  itself puts a room twice into a neighbour list. The search then lists some
  routes more than once. Without such tunnels every route is listed exactly
  once.

## Model

| member | source | states |
|---|---|---|
| Text.Fields | internal/dataops/dataops.go:167 | every field `strings.Fields` returns is non-empty and free of white space |
| Text.FieldsOfJoin | internal/dataops/dataops.go:167 | splitting single-space-joined words on white space gives back exactly those words |
| Text.Split | internal/dataops/dataops.go:201 | `strings.Split` on a one-character separator gives one more part than there are separators, and no part contains the separator |
| Text.JoinOfSplit | internal/dataops/dataops.go:201 | joining the parts of a split with the separator restores the input |
| Text.SplitOfJoin | internal/dataops/dataops.go:201 | splitting separator-free parts joined by the separator gives back the parts |
| Text.FieldsOfSpaced | internal/dataops/dataops.go:167 | non-empty blank-free words, separated by non-empty runs of white space and with any white space before and after, are split back into exactly those words |
| Text.IntToString | internal/core/core.go:111 | `strconv.Itoa` writes a non-empty string whose characters after the first are digits, with a leading minus exactly for negative numbers; ParseIntOfIntToString reads it back |
| Text.ParseInt | internal/dataops/dataops.go:178 | `strconv.Atoi` accepts only a non-empty string whose characters after the first are digits, gives a negative value only after a leading minus, and reads every non-empty digit string as a non-negative number |
| Text.DigitsOfNat | internal/core/core.go:111 | the decimal digits `strconv.Itoa` writes for a natural number have that number as their value |
| Text.ParseIntOfIntToString | internal/dataops/dataops.go:178 | `strconv.Atoi` reads back every integer `strconv.Itoa` writes, negative ones included |
| Adjacency.ParseAdjacents | internal/core/core.go:13-23 | both ends of every tunnel have a neighbour list and no list is empty; NeighboursAreIncident gives each list entry by entry |
| Adjacency.Append | internal/core/core.go:19 | appending a neighbour extends that room's list by exactly that neighbour and leaves every other room's list unchanged |
| Adjacency.NeighboursAreIncident | internal/core/core.go:13-23 | each room's neighbour list is the ends of the tunnels touching it, in tunnel order, both directions recorded |
| Adjacency.IncidentIffTunnel | internal/core/core.go:17-22 | a room is among the incident ends of another exactly when a tunnel joins them in one direction or the other |
| Adjacency.NeighbourIffTunnel | internal/core/core.go:17-22 | b is a neighbour of a exactly when some tunnel joins them, and exactly when a is a neighbour of b (symmetry) |
| Adjacency.TotalIncidentIsTwice | internal/core/core.go:17-22 | over a duplicate-free room list holding every tunnel end, the incident lists hold two entries per tunnel |
| Adjacency.TotalLengthIsTwicePositions | internal/core/core.go:17-22 | for a duplicate-free room list that holds every tunnel end, the neighbour lists have 2·|positions| entries in total |
| Paths.Dfs | internal/core/core.go:26-51 | the search leaves the visited set as it found it; every path it records starts with the trail and the current room, ends at the end room, steps along neighbours, repeats no room and avoids visited rooms |
| Paths.DfsChildren | internal/core/core.go:43-48 | the child loop leaves the visited set unchanged and records only paths continuing through a not-yet-tried neighbour |
| Paths.DepthSearch | internal/core/core.go:26-51 | the search from the start room ends with nothing marked visited, and each recorded path is a simple start-to-end walk |
| Paths.DfsComplete | internal/core/core.go:41-48 | every simple continuation from the current room to the end that avoids the visited rooms is recorded |
| Paths.DfsChildrenComplete | internal/core/core.go:43-48 | every simple continuation through a neighbour at or after the loop position is recorded by the rest of the loop |
| Paths.DepthSearchFindsExactlySimplePaths | internal/core/core.go:26-51 | a path is recorded exactly when it is a simple start-to-end path through the adjacency |
| Paths.DfsListsOnce | internal/core/core.go:26-51 | when no neighbour list repeats a room, a search call records no path twice |
| Paths.DfsChildrenListOnce | internal/core/core.go:43-48 | when no neighbour list repeats a room, the loop over a repeat-free neighbour list records no path twice |
| Paths.DepthSearchListsOnce | internal/core/core.go:26-51 | when no neighbour list repeats a room, DepthSearch lists every path at most once |
| Paths.InsertByLength | internal/core/core.go:68-70 | inserting into a length-sorted list keeps it sorted and adds exactly that path |
| Paths.SortByLength | internal/core/core.go:68-70 | the sorted list is non-decreasing in length and a permutation of its input |
| Paths.FindAllPaths | internal/core/core.go:54-79 | fails, with the no-paths error, exactly when the search found nothing; otherwise returns the found paths permuted into non-decreasing length order |
| Paths.RouteIffSimplePath | internal/core/core.go:13-23 | a simple start-to-end walk over the neighbour lists is the same as one over the tunnels |
| Paths.FoundIffRoute | internal/core/core.go:26-51 | the search records a path exactly when it is a route: simple, start to end, one tunnel per step |
| Paths.FindAllPathsIsAllRoutes | internal/core/core.go:54-79 | fails exactly when no route exists; otherwise the list is non-empty, sorted by length, and holds exactly the routes, each once when no neighbour list repeats a room |
| Groups.Without | internal/dataops/dataops.go:260 | removing candidate i leaves the other candidates, one fewer |
| Groups.DisjointAppend | internal/dataops/dataops.go:233-263 | appending a path keeps the group interior-disjoint exactly when none of the path's rooms is an interior room of a group member |
| Groups.SearchPaths | internal/dataops/dataops.go:226-269 | every recorded group extends the current one with distinct candidates; it is never larger than the ant count and stays interior-disjoint; with a non-zero ant count the empty group is never recorded |
| Groups.SearchFrom | internal/dataops/dataops.go:233-264 | groups recorded by the candidate loop strictly extend the current group, within the ant count, and stay interior-disjoint |
| Groups.SearchFindsEveryGroup | internal/dataops/dataops.go:226-269 | every non-empty interior-disjoint extension of the current group by distinct candidates, within the ant count, is recorded |
| Groups.SearchPathsRecordsExactly | internal/dataops/dataops.go:226-269 | the recorded groups are exactly the non-empty interior-disjoint extensions of the current group by distinct candidates within the ant count |
| Groups.FullGroupStops | internal/dataops/dataops.go:228-231 | a group of ant-count size is recorded and its branch searches no further |
| Groups.OpenGroupRecordedLast | internal/dataops/dataops.go:265-268 | a non-empty group below the ant count is recorded after everything its candidate loop records |
| Groups.AllGroups | internal/dataops/dataops.go:276-281 | with a positive ant count every group searched is non-empty, at most ant-count long and interior-disjoint; when the shortest path is a direct tunnel every group starts with it; AllGroupsAreCandidates characterises the groups exactly |
| Groups.AllGroupsAreCandidates | internal/dataops/dataops.go:276-281 | MoveAntsToEnd chooses among exactly the non-empty interior-disjoint selections of at most ant-count distinct paths, led by the direct tunnel when the shortest path is one |
| Groups.SeededGroupsAreCandidates | internal/dataops/dataops.go:277-278 | when the shortest path is a direct tunnel, the groups searched from it are exactly the candidate selections led by it |
| Groups.OpenGroupsAreCandidates | internal/dataops/dataops.go:279-280 | otherwise the groups searched from the empty group are exactly the candidate selections |
| Groups.ShortestAloneIsRecorded | internal/dataops/dataops.go:276-281 | the shortest path alone is always a recorded group, so there is always a group to choose |
| Groups.GoDiv | internal/dataops/dataops.go:295 | Go's integer division truncates toward zero: the remainder a − q·b lies in [0, b) for a ≥ 0 and in (−b, 0] for a < 0 |
| Groups.BandwidthCoversLengths | internal/dataops/dataops.go:289-292 | the product of the path lengths is at least one and at least every single length |
| Groups.WeightAtLeastSize | internal/dataops/dataops.go:293-296 | the sum of bandwidth/len is at least the group size, so the score's division is defined |
| Groups.Turns | internal/dataops/dataops.go:289-297 | with a non-negative ant count the score lies between 0 and ants·bandwidth, and a single path of L rooms scores ants·L; TurnsClosedForm and TwoPathScore give its exact value |
| Groups.ExactQuotients | internal/dataops/dataops.go:289-296 | each term bandwidth/len(p_k) of the divisor divides exactly: it is the product of the other paths' lengths, and times len(p_k) gives back the bandwidth |
| Groups.WeightSumPrefix | internal/dataops/dataops.go:293-296 | the divisor summed over the first n paths equals the sum over k < n of the product of all lengths but the k-th |
| Groups.TurnsClosedForm | internal/dataops/dataops.go:289-297 | the score of a group is ants·Π len(p_j) divided (truncating) by Σ_k Π_{j≠k} len(p_j), and that divisor is at least the group size |
| Groups.TwoPathScore | internal/dataops/dataops.go:289-297 | two paths of lengths a and b score ants·a·b / (a + b) |
| Groups.BestGroup | internal/dataops/dataops.go:284-302 | no group means no choice; otherwise the chosen index has the least score, and every earlier group scores strictly more (the first minimum wins) |
| Groups.RecordedGroupsValid | internal/dataops/dataops.go:288-302 | every recorded group can be scored and is a candidate group |
| Groups.MoveAntsToEnd | internal/dataops/dataops.go:272-306 | the result is a recorded candidate group whose score is no greater than that of any recorded group |
| Groups.MoveAntsToEndKeepsFirstMinimum | internal/dataops/dataops.go:298-301 | ties go to the group recorded first |
| Schedule.DivIsRow | internal/core/core.go:91 | the ants k·P to k·P+P−1 all tentatively start on turn k+1 |
| Schedule.RoundIsDiv | internal/core/core.go:88-91 | the round and lane an ant is given, counted by repeated subtraction, are Go's ant / P and ant % P |
| Schedule.Rescan | internal/core/core.go:94-105 | the reassignment loop ends on a pair of the window costing no more than the one kept at the start, and strictly less when it is another ant's |
| Schedule.RescanIsFirstCheapest | internal/core/core.go:94-105 | started from a running minimum, the loop ends on the first pair of least len(path)+turn among the ant's own and the next P−1 ants' pairs |
| Schedule.Chosen | internal/core/core.go:87-105 | ants up to AntCount−P keep their own pair; any other pair an ant takes lies in its window and has a strictly smaller len(path)+turn than its own |
| Schedule.Assign | internal/core/core.go:87-105 | the pair an ant ends up with is a path of the group with a start turn of at least 1; its len(path)+turn is no greater than that of the ant's own tentative pair, and an ant outside the last P keeps its own pair; ChosenIsFirstCheapest says which pair a late ant takes |
| Schedule.ChosenIsFirstCheapest | internal/core/core.go:93-105 | a late ant takes the first cheapest pair in its window |
| Schedule.RoundLeaderStart | internal/core/core.go:89-105 | ant k·P starts on turn k+1 even after reassignment |
| Schedule.PlansAt | internal/core/core.go:86-105 | entry i of the per-ant list is the path and start turn ant i ends up with |
| Schedule.ParseTokenOfToken | internal/core/core.go:111 | the token `L<ant+1>-<room>` decodes back to its ant and room name |
| Schedule.AddStepsAt | internal/core/core.go:109-112 | an ant's steps append exactly one token to each of the consecutive turns from its start turn, one per room after the first, and nothing elsewhere |
| Schedule.LogIsTurnTokens | internal/core/core.go:87-113 | the log entry of each turn is that turn's tokens in ant order, and a turn is in the log exactly when it has a move |
| Schedule.TurnAntsIncrease | internal/core/core.go:86-112 | the ants moving on a turn are listed in strictly increasing order, all below the number of ants processed |
| Schedule.TurnAntsAreActive | internal/core/core.go:86-112 | the ants listed for a turn are exactly the ants whose walk covers that turn |
| Schedule.TurnTokensOfTurnAnts | internal/core/core.go:109-112 | the tokens of a turn are one per moving ant, in the same order, each naming the room that ant enters |
| Schedule.TurnTokensInAntOrder | internal/core/core.go:87-113 | the tokens of a turn decode, in order, to strictly increasing ants, each with the room it enters |
| Schedule.AntTokensPerTurn | internal/core/core.go:109-112 | an ant gets exactly one token on each of the len(path)−1 turns from the start turn of its pair, naming the room it enters, and none on any other turn |
| Schedule.LateAntTakesDirectTunnel | internal/core/core.go:94-105 | with a direct tunnel and a 4-room detour, the second of two ants gives up the detour on turn 1 for the direct tunnel on turn 2 |
| Schedule.DetourLog | internal/core/core.go:87-113 | in that case the log holds turn 1 "L1-b" and turn 2 "L2-b" |
| Schedule.DetourOutput | internal/core/core.go:115-123 | in that case the output is "L1-b", a newline, then "L2-b" |
| Schedule.TurnsWithoutGap | internal/core/core.go:89-112 | when every path has at least two rooms, a move on turn t implies a move on every turn from 1 to t |
| Schedule.LoggedTurnsAreRange | internal/core/core.go:116-120 | when every path has at least two rooms, the turns in the log are exactly 1 to len(log) |
| Schedule.ResultOutput | internal/core/core.go:82-124 | with no ants the output is empty; ResultOutputPrintsEveryTurn gives the output line by line |
| Schedule.ResultOutputPrintsEveryTurn | internal/core/core.go:82-124 | when every path has at least two rooms, output line t is turn t's tokens joined by spaces, every printed turn has a move, and no move falls outside the printed turns |
| Validate.ParseRoom | internal/dataops/dataops.go:165-196 | every failure is the invalid-room-format error; an accepted room is the line's three fields, its name the first field (non-empty, blank-free, not starting with "L") and its coordinates the Atoi values of the other two; a three-field line with two integers and a name not starting with "L" is accepted |
| Validate.RoomLineFields | internal/dataops/dataops.go:167 | the canonical line of a valid room has exactly three fields: the name and the two coordinates |
| Validate.ParseRoomOfRoomLine | internal/dataops/dataops.go:165-196 | every valid room is read back unchanged from its canonical line "name x y" |
| Validate.ParseRoomIgnoresSpacing | internal/dataops/dataops.go:167-175 | any line with the same fields as a valid room's canonical line, whatever its spacing, yields that room |
| Validate.ParseRoomCanonical | internal/dataops/dataops.go:165-196 | writing an accepted room back out in canonical form and parsing it again gives the same room |
| Validate.ParsePosition | internal/dataops/dataops.go:199-222 | every failure is the invalid-data-format error, and both ends of an accepted tunnel are registered rooms |
| Validate.ParsePositionIff | internal/dataops/dataops.go:199-222 | a tunnel line is accepted exactly when it is "a-b" for two registered dash-free room names |
| Validate.ParsePositionOfLine | internal/dataops/dataops.go:199-222 | "a-b" for registered dash-free names yields the tunnel between the registered rooms a and b |
| Validate.EmptyGraph | internal/dataops/dataops.go:31-34 | the graph before the room section satisfies the room-section invariant |
| Validate.CheckRooms | internal/dataops/dataops.go:99-162 | an accepted line keeps the ant count and tunnels and never changes an existing start or end; a `##start` or `##end` line sets that room and files its name, an ordinary line appends its room and files its name, and a comment or empty line changes nothing; while no start (end) room is set, a `##start` (`##end`) line is accepted exactly when its room parses and otherwise fails with the room-format error; failures are room-format or data-format errors |
| Validate.StartLine | internal/dataops/dataops.go:105-161 | while no start room is set, a `##start` line carrying a valid room sets the start room to it and files its name, and changes nothing else |
| Validate.EndLine | internal/dataops/dataops.go:119-161 | while no end room is set, an `##end` line carrying a valid room sets the end room to it and files its name, and changes nothing else |
| Validate.OrdinaryLine | internal/dataops/dataops.go:136-161 | a room line whose name does not start with "#", is not yet filed, and whose coordinates no ordinary room has, appends the room and files its name |
| Validate.CheckRoomsAppends | internal/dataops/dataops.go:99-162 | an accepted line appends to the room list exactly the ordinary room it describes, if any |
| Validate.CheckRoomsKeepsWellFormed | internal/dataops/dataops.go:136-159 | accepting a line keeps ordinary room names and coordinates distinct and every filed room valid, filed under its own name, and held by the graph |
| Validate.FileStart | internal/dataops/dataops.go:105-117 | filing a first start room keeps the room section well formed |
| Validate.FileEnd | internal/dataops/dataops.go:119-131 | filing a first end room keeps the room section well formed |
| Validate.FileOrdinary | internal/dataops/dataops.go:136-159 | filing an ordinary room with a new name and new coordinates keeps the room section well formed |
| Validate.CheckRoomsRejects | internal/dataops/dataops.go:105-153 | a second start or end is rejected; a bad room line fails as parseRoom fails; an ordinary room is rejected exactly when its name is already filed or an ordinary room has its coordinates |
| Validate.CheckPositions | internal/dataops/dataops.go:82-95 | succeeds exactly when both start and end are present; a missing start is reported before a missing end |
| Validate.FirstDash | internal/dataops/dataops.go:40-44 | the room section ends at the first line containing a dash, or at the end of the input |
| Validate.RoomSection | internal/dataops/dataops.go:40-50 | the room loop keeps the room-section invariant, the ant count, the (empty) tunnel list and an already set start or end room; its room list is the one it started with followed by the rooms of its ordinary lines, in order; it fails only with room-format or data-format errors |
| Validate.RoomSectionFailsOnBadRoom | internal/dataops/dataops.go:40-50 | the room loop fails when a `##start` or `##end` line, or a line that is neither a comment nor empty, carries a room that does not parse |
| Validate.RoomSectionStart | internal/dataops/dataops.go:40-50 | in an accepted room section every `##start` line is the only one: no start room was set before, and the start room afterwards is the room that line carries; without such a line the start room is unchanged |
| Validate.RoomSectionEnd | internal/dataops/dataops.go:40-50 | the same for `##end` lines and the end room |
| Validate.StartEndSection | internal/dataops/dataops.go:40-50 | a `##start` line followed by an `##end` line, read from the empty graph, gives the graph with exactly those two rooms filed as start and end |
| Validate.TunnelSection | internal/dataops/dataops.go:63-75 | the tunnel loop changes only the tunnel list, only appends tunnels between registered rooms, and reports any bad tunnel as a missing start room |
| Validate.TunnelSectionParsesEachLine | internal/dataops/dataops.go:63-75 | the tunnel loop fails exactly when one of its non-comment lines is not a valid tunnel; otherwise it appends the parse of each such line, one per line and in input order |
| Validate.OneTunnel | internal/dataops/dataops.go:63-75 | a single line "a-b" between registered names appends exactly the tunnel between the rooms filed under a and b |
| Validate.CreateGraphAfterRooms | internal/dataops/dataops.go:40-79 | after the room section a missing start or end room is reported first; when both are set and a tunnel line exists, the tunnel section decides the result; when both are set and no line holds a dash, the result is "no start room found" |
| Validate.CreateGraph | internal/dataops/dataops.go:17-79 | the invalid-ant-count error is returned exactly when the first line is not an integer or is not positive |
| Validate.CreateGraphAccepted | internal/dataops/dataops.go:17-79 | a built graph has the positive ant count of the first line, a start and an end room, a well-formed room section, and tunnels between registered rooms only |
| Validate.TwoRoomFarm | internal/dataops/dataops.go:17-79 | a first line with a positive ant count, a start room line, an end room line and the tunnel between them give exactly the graph with those two rooms and that one tunnel |
| Validate.NoEndBeforeNoTunnels | internal/dataops/dataops.go:17-60 | an ant count and a start room with no end room and no tunnels fail with the missing-end-room error: the start and end rooms are checked before the missing tunnel section, which would be reported as "no start room found" |
| Pipeline.Plan | internal/app/app.go:33-39 | fails with the no-paths error exactly when no route exists; otherwise a non-empty interior-disjoint group of at most ant-count routes |
| Pipeline.PlanIsBestCandidate | internal/app/app.go:39 | the chosen group's score is no greater than that of any candidate group |
| Pipeline.Solve | internal/app/app.go:33-42 | the solver fails, with the no-paths error, exactly when choosing a group fails |
| Pipeline.SolvePrintsEveryTurn | internal/app/app.go:42 | with distinct start and end rooms the printed log has one line per turn from 1 on, each holding that turn's moves, and no move is left out |
| Pipeline.Run | internal/app/app.go:28-42 | graph-building errors are passed through; on a built graph the run fails exactly when no route joins start and end |

## Left out

- Reading the file, the command line, printing and error messages are left out (`pkg/fsops`, `pkg/serror`, `cmd/lem-in/main.go`). The same goes for the printing parts of `internal/app/app.go`.
- `fsops.ParseFile` is left out. It normalises spacing, merges each `##start`/`##end` marker line with the following room line, and rejects files of fewer than four lines. The validators take its output as given lines.
- Validate.CreateGraph: requires at least one line. `ParseFile` guarantees four, and the Go code reads the first line unconditionally.
- Groups.SearchPaths: models copy-on-branch. `append(paths[:i], paths[i+1:]...)` writes into the backing array the caller is still iterating over. `append(group, path)` can share storage between sibling groups. The literal Go enumeration can therefore revisit or skip candidates and overwrite recorded groups. The model enumerates each candidate once from an unaltered list.
- Groups.Turns: no machine-integer overflow. The bandwidth is a product of path lengths and can overflow Go's `int`; the model uses unbounded integers.
- Groups.BestGroup: uses `Option` in place of the `math.MaxInt` sentinel. A group whose score reached `MaxInt` would never be chosen in Go.
- Text.ParseInt: does not model Atoi's 64-bit range error. An out-of-range number is accepted with its exact value.
- Paths.FindAllPaths: fixes one order where `sort.Slice` may return another. Paths of equal length may come out in a different order, and that order feeds the group search and the tie-break in MoveAntsToEnd.
- Groups.Interior: gives a one-room path an empty interior. Go's `(*takenPath)[1:0]` panics there. A one-room path arises only when the start and end rooms are the same value.
- Schedule.ResultOutput: requires a non-empty group of non-empty paths. Go divides by `len(solution)` and slices `(*antPath)[1:]`, which panic otherwise.
- Schedule.ResultOutputPrintsEveryTurn: requires every path to have at least two rooms. A one-room path adds no moves.
- Rooms are compared as values (name, x, y). Go compares `*Room` pointers. The two differ only for distinct room objects with equal name and coordinates, such as a start and an end room written identically.
- Strings are sequences of characters. Go's byte-level handling of multi-byte UTF-8 text, such as `strings.Fields` decoding runes, is not modelled.
- Exponential running time and memory use are not modelled.

=== FILE: adjacency.dfy ===
/**
 * Adjacency building (ParseAdadjacents, internal/core/core.go): every tunnel
 * is recorded in both directions, neighbour lists in tunnel order.
 */
module Adjacency {
  import opened Entity

  /** The neighbour lists, keyed by room. */
  type Adjacents = map<Room, seq<Room>>

  /** Go's map read `adj[r]`: a room without tunnels has the empty (nil) list. */
  function Neighbours(adj: Adjacents, r: Room): seq<Room> {
    if r in adj then adj[r] else []
  }

  /** Go's `adj[a] = append(adj[a], b)`. */
  function Append(adj: Adjacents, a: Room, b: Room): (r: Adjacents)
    ensures Neighbours(r, a) == Neighbours(adj, a) + [b]
    ensures forall x :: x != a ==> Neighbours(r, x) == Neighbours(adj, x)
  {
    adj[a := Neighbours(adj, a) + [b]]
  }

  /** ParseAdadjacents: one pass over the tunnels, in input order. */
  function ParseAdjacents(positions: seq<Position>): (adj: Adjacents)
    ensures forall i :: 0 <= i < |positions| ==> positions[i].start in adj && positions[i].end in adj
    ensures forall r :: r in adj ==> |adj[r]| > 0
    decreases |positions|
  {
    if |positions| == 0 then map[]
    else
      var p := positions[|positions| - 1];
      var before := ParseAdjacents(positions[..|positions| - 1]);
      Append(Append(before, p.start, p.end), p.end, p.start)
  }

  // ------------------------------------------------------ reference reading

  /** What one tunnel contributes to the neighbour list of `r`. */
  function Contribution(p: Position, r: Room): seq<Room> {
    (if p.start == r then [p.end] else []) + (if p.end == r then [p.start] else [])
  }

  /** The neighbour list of `r` read straight off the tunnel list. */
  function Incident(positions: seq<Position>, r: Room): seq<Room>
    decreases |positions|
  {
    if |positions| == 0 then []
    else Incident(positions[..|positions| - 1], r) + Contribution(positions[|positions| - 1], r)
  }

  /** `a` and `b` are joined by some tunnel, in either direction. */
  predicate Tunnel(positions: seq<Position>, a: Room, b: Room) {
    exists i :: 0 <= i < |positions| &&
      ((positions[i].start == a && positions[i].end == b) ||
       (positions[i].start == b && positions[i].end == a))
  }

  /** Each room's neighbour list is its tunnel-order list of incident tunnel ends. */
  lemma {:induction false} NeighboursAreIncident(positions: seq<Position>, r: Room)
    ensures Neighbours(ParseAdjacents(positions), r) == Incident(positions, r)
    decreases |positions|
  {
    if |positions| > 0 {
      NeighboursAreIncident(positions[..|positions| - 1], r);
      AppendBothEnds(ParseAdjacents(positions[..|positions| - 1]), positions[|positions| - 1], r);
    }
  }

  /** Filing one tunnel both ways adds exactly its contribution to each list. */
  lemma AppendBothEnds(adj: Adjacents, p: Position, r: Room)
    ensures Neighbours(Append(Append(adj, p.start, p.end), p.end, p.start), r) ==
      Neighbours(adj, r) + Contribution(p, r)
  {
    var once := Append(adj, p.start, p.end);
    if p.start == r && p.end == r {
      assert Neighbours(adj, r) + [p.end] + [p.start] == Neighbours(adj, r) + Contribution(p, r);
    } else if p.start == r {
      assert Neighbours(once, r) == Neighbours(adj, r) + [p.end];
    } else if p.end == r {
      assert Neighbours(once, r) == Neighbours(adj, r);
    }
  }

  lemma {:induction false} IncidentIffTunnel(positions: seq<Position>, a: Room, b: Room)
    ensures b in Incident(positions, a) <==> Tunnel(positions, a, b)
    decreases |positions|
  {
    if |positions| > 0 {
      var init := positions[..|positions| - 1];
      var p := positions[|positions| - 1];
      IncidentIffTunnel(init, a, b);
      if Tunnel(init, a, b) {
        var i :| 0 <= i < |init| &&
          ((init[i].start == a && init[i].end == b) || (init[i].start == b && init[i].end == a));
        assert positions[i] == init[i];
      }
      if Tunnel(positions, a, b) && !Tunnel(init, a, b) {
        var i :| 0 <= i < |positions| &&
          ((positions[i].start == a && positions[i].end == b) ||
           (positions[i].start == b && positions[i].end == a));
        assert forall j :: 0 <= j < |init| ==> init[j] == positions[j];
        assert i == |init|;
      }
      if b in Contribution(p, a) {
        assert positions[|init|] == p;
      }
    }
  }

  /**
   * Symmetry: `b` is a neighbour of `a` exactly when a tunnel joins them, so
   * every tunnel is usable in both directions and nothing else is.
   */
  lemma NeighbourIffTunnel(positions: seq<Position>, a: Room, b: Room)
    ensures b in Neighbours(ParseAdjacents(positions), a) <==> Tunnel(positions, a, b)
    ensures b in Neighbours(ParseAdjacents(positions), a) <==> a in Neighbours(ParseAdjacents(positions), b)
  {
    NeighboursAreIncident(positions, a);
    NeighboursAreIncident(positions, b);
    IncidentIffTunnel(positions, a, b);
    IncidentIffTunnel(positions, b, a);
  }

  // ------------------------------------------------------------ total size

  /** Total length of the neighbour lists of `rooms`. */
  function TotalLength(adj: Adjacents, rooms: seq<Room>): nat
    decreases |rooms|
  {
    if |rooms| == 0 then 0 else |Neighbours(adj, rooms[0])| + TotalLength(adj, rooms[1..])
  }

  function TotalIncident(positions: seq<Position>, rooms: seq<Room>): nat
    decreases |rooms|
  {
    if |rooms| == 0 then 0 else |Incident(positions, rooms[0])| + TotalIncident(positions, rooms[1..])
  }

  function TotalContribution(p: Position, rooms: seq<Room>): nat
    decreases |rooms|
  {
    if |rooms| == 0 then 0 else |Contribution(p, rooms[0])| + TotalContribution(p, rooms[1..])
  }

  lemma {:induction false} TotalLengthIsIncident(positions: seq<Position>, rooms: seq<Room>)
    ensures TotalLength(ParseAdjacents(positions), rooms) == TotalIncident(positions, rooms)
    decreases |rooms|
  {
    if |rooms| > 0 {
      NeighboursAreIncident(positions, rooms[0]);
      TotalLengthIsIncident(positions, rooms[1..]);
    }
  }

  lemma {:induction false} TotalIncidentStep(positions: seq<Position>, p: Position, rooms: seq<Room>)
    ensures TotalIncident(positions + [p], rooms) == TotalIncident(positions, rooms) + TotalContribution(p, rooms)
    decreases |rooms|
  {
    if |rooms| > 0 {
      assert (positions + [p])[..|positions|] == positions;
      TotalIncidentStep(positions, p, rooms[1..]);
    }
  }

  lemma {:induction false} TotalContributionCounts(p: Position, rooms: seq<Room>)
    ensures TotalContribution(p, rooms) == multiset(rooms)[p.start] + multiset(rooms)[p.end]
    decreases |rooms|
  {
    if |rooms| > 0 {
      TotalContributionCounts(p, rooms[1..]);
      assert rooms == [rooms[0]] + rooms[1..];
    }
  }

  lemma {:induction false} CountOfDistinct(rooms: seq<Room>, r: Room)
    requires Distinct(rooms)
    requires r in rooms
    ensures multiset(rooms)[r] == 1
    decreases |rooms|
  {
    assert rooms == [rooms[0]] + rooms[1..];
    if rooms[0] != r {
      CountOfDistinct(rooms[1..], r);
    } else {
      assert r !in rooms[1..];
    }
  }

  lemma {:induction false} TotalIncidentIsTwice(positions: seq<Position>, rooms: seq<Room>)
    requires Distinct(rooms)
    requires forall i :: 0 <= i < |positions| ==> positions[i].start in rooms && positions[i].end in rooms
    ensures TotalIncident(positions, rooms) == 2 * |positions|
    decreases |positions|
  {
    if |positions| == 0 {
      ZeroIncident(rooms);
    } else {
      var init := positions[..|positions| - 1];
      var p := positions[|positions| - 1];
      assert positions == init + [p];
      assert forall i :: 0 <= i < |init| ==> init[i] == positions[i];
      TotalIncidentIsTwice(init, rooms);
      TotalIncidentStep(init, p, rooms);
      TotalContributionCounts(p, rooms);
      CountOfDistinct(rooms, p.start);
      CountOfDistinct(rooms, p.end);
    }
  }

  /**
   * Summed over any duplicate-free list of rooms that holds every tunnel end,
   * the neighbour lists hold exactly two entries per tunnel.
   */
  lemma TotalLengthIsTwicePositions(positions: seq<Position>, rooms: seq<Room>)
    requires Distinct(rooms)
    requires forall i :: 0 <= i < |positions| ==> positions[i].start in rooms && positions[i].end in rooms
    ensures TotalLength(ParseAdjacents(positions), rooms) == 2 * |positions|
  {
    TotalLengthIsIncident(positions, rooms);
    TotalIncidentIsTwice(positions, rooms);
  }

  lemma {:induction false} ZeroIncident(rooms: seq<Room>)
    ensures TotalIncident([], rooms) == 0
    decreases |rooms|
  {
    if |rooms| > 0 {
      ZeroIncident(rooms[1..]);
    }
  }
}

=== FILE: entity.dfy ===
/** Failure-compatible result types shared by every stage of the solver. */
module Wrappers {

  /** A value that may be absent: stands in for Go's nil pointers and map misses. */
  datatype Option<+T> = None | Some(value: T)

  /** The value-or-error pair that Go functions return as `(T, error)`. */
  datatype Result<+T, +E> = Success(value: T) | Failure(error: E)
}

/** The farm graph and its parts (internal/entity/graph.go) and the error values of pkg/serror. */
module Entity {
  import opened Wrappers

  /** The error values the solver can report. */
  datatype Error =
    | InvalidDataFormat
    | InvalidRoomFormat
    | InvalidDataOrAntsNum
    | InvalidDataOrNoStartRoomFound
    | InvalidDataOrNoEndRoomFound
    | NoPaths

  /** A room with its name and its (only uniqueness-relevant) coordinates. */
  datatype Room = Room(name: string, x: int, y: int)

  /** An undirected tunnel between two rooms. */
  datatype Position = Position(start: Room, end: Room)

  /** A route through the farm, listed room by room. */
  type Path = seq<Room>

  /** A set of routes used side by side, in the order they were chosen. */
  type Group = seq<Path>

  /** No element is listed twice. */
  predicate Distinct<T(==)>(s: seq<T>) {
    forall i, j :: 0 <= i < j < |s| ==> s[i] != s[j]
  }

  /** A non-empty group of non-empty paths: every division by a path length or a group size is defined. */
  predicate ValidGroup(g: Group) {
    |g| > 0 && forall k :: 0 <= k < |g| ==> |g[k]| > 0
  }

  /**
   * The farm as the input validators build it: the ant count, the start and end
   * rooms (absent until their marker line is read), the ordinary rooms, the
   * tunnels and the name lookup.
   */
  datatype FarmGraph = FarmGraph(
    ants: int,
    start: Option<Room>,
    end: Option<Room>,
    rooms: seq<Room>,
    positions: seq<Position>,
    roomNames: map<string, Room>)
}

=== FILE: groups.dfy ===
/**
 * Group search and selection (SearchPaths and MoveAntsToEnd,
 * internal/dataops/dataops.go): a backtracking walk that records groups of
 * paths sharing no interior room, and the cost heuristic that picks one.
 */
module Groups {
  import opened Wrappers
  import opened Entity

  /** The rooms of `p` strictly between its first and last room. */
  function Interior(p: Path): seq<Room> {
    if |p| < 2 then [] else p[1..|p| - 1]
  }

  /** pathIsTaken: some room of `p` is an interior room of a path of `group`. */
  predicate Blocked(group: Group, p: Path) {
    exists k, m :: 0 <= k < |group| && 0 <= m < |p| && p[m] in Interior(group[k])
  }

  /** No path of `group` touches the interior of a path chosen before it. */
  predicate InteriorDisjoint(group: Group) {
    forall l :: 0 <= l < |group| ==> !Blocked(group[..l], group[l])
  }

  /**
   * `g` extends `group` with paths drawn from `paths`, each candidate used at
   * most as often as it occurs there.
   */
  predicate Grows(group: Group, paths: seq<Path>, g: Group) {
    && |group| <= |g|
    && g[..|group|] == group
    && multiset(g[|group|..]) <= multiset(paths)
  }

  /** The candidates left for a branch after taking the one at index `i`. */
  function Without(paths: seq<Path>, i: nat): (rest: seq<Path>)
    requires i < |paths|
    ensures multiset(rest) + multiset{paths[i]} == multiset(paths)
    ensures |rest| == |paths| - 1
  {
    assert paths == paths[..i] + [paths[i]] + paths[i + 1..];
    paths[..i] + paths[i + 1..]
  }

  lemma DisjointAppend(group: Group, p: Path)
    ensures InteriorDisjoint(group + [p]) <==> InteriorDisjoint(group) && !Blocked(group, p)
  {
    var g := group + [p];
    assert g[..|group|] == group;
    assert forall l :: 0 <= l < |group| ==> g[..l] == group[..l] && g[l] == group[l];
  }

  lemma GrowsStep(group: Group, paths: seq<Path>, i: nat, g: Group)
    requires i < |paths|
    requires Grows(group + [paths[i]], Without(paths, i), g)
    ensures Grows(group, paths, g)
  {
    var n := |group|;
    assert g[..n] == g[..n + 1][..n];
    assert g[n..] == [paths[i]] + g[n + 1..];
  }

  lemma GrowsBranch(group: Group, paths: seq<Path>, i: nat, sub: seq<Group>)
    requires i < |paths|
    requires forall g :: g in sub ==> Grows(group + [paths[i]], Without(paths, i), g)
    ensures forall g :: g in sub ==> Grows(group, paths, g) && |g| > |group|
  {
    forall g | g in sub
      ensures Grows(group, paths, g) && |g| > |group|
    {
      GrowsStep(group, paths, i, g);
    }
  }

  /**
   * SearchPaths with an independent copy of the candidates for every branch.
   * A group of `ants` paths is recorded and ends its branch; otherwise every
   * candidate that is not blocked is tried in order, and the group itself is
   * recorded after the loop unless it is empty.
   */
  function SearchPaths(ants: int, paths: seq<Path>, group: Group): (groups: seq<Group>)
    ensures forall g :: g in groups ==> Grows(group, paths, g)
    ensures |group| <= ants ==> forall g :: g in groups ==> |g| <= ants
    ensures InteriorDisjoint(group) ==> forall g :: g in groups ==> InteriorDisjoint(g)
    ensures ants != 0 ==> forall g :: g in groups ==> |g| > 0
    decreases |paths|, 1, 0
  {
    if |group| == ants then
      assert group[|group|..] == [];
      [group]
    else
      assert group[..|group|] == group && group[|group|..] == [];
      SearchFrom(ants, paths, group, 0) + (if |group| != 0 then [group] else [])
  }

  /** The candidate loop of SearchPaths from index `i` on. */
  function SearchFrom(ants: int, paths: seq<Path>, group: Group, i: nat): (groups: seq<Group>)
    requires i <= |paths|
    ensures forall g :: g in groups ==> Grows(group, paths, g) && |g| > |group|
    ensures |group| < ants ==> forall g :: g in groups ==> |g| <= ants
    ensures InteriorDisjoint(group) ==> forall g :: g in groups ==> InteriorDisjoint(g)
    decreases |paths|, 0, |paths| - i
  {
    if i == |paths| then []
    else if Blocked(group, paths[i]) then SearchFrom(ants, paths, group, i + 1)
    else
      DisjointAppend(group, paths[i]);
      var sub := SearchPaths(ants, Without(paths, i), group + [paths[i]]);
      GrowsBranch(group, paths, i, sub);
      sub + SearchFrom(ants, paths, group, i + 1)
  }

  // --------------------------------------------------- what gets recorded

  lemma SearchFromIncludes(ants: int, paths: seq<Path>, group: Group, i0: nat, i: nat, g: Group)
    requires i0 <= i < |paths|
    requires !Blocked(group, paths[i])
    requires g in SearchPaths(ants, Without(paths, i), group + [paths[i]])
    ensures g in SearchFrom(ants, paths, group, i0)
    decreases i - i0
  {
    if i0 < i {
      SearchFromIncludes(ants, paths, group, i0 + 1, i, g);
    }
  }

  lemma IndexOfMember(paths: seq<Path>, p: Path) returns (i: nat)
    requires p in multiset(paths)
    ensures i < |paths| && paths[i] == p
  {
    assert p in paths;
    i :| 0 <= i < |paths| && paths[i] == p;
  }

  /**
   * Every interior-disjoint, non-empty extension of `group` by at most
   * `ants` candidates is recorded: the search walks all of them.
   */
  lemma {:induction false} SearchFindsEveryGroup(ants: int, paths: seq<Path>, group: Group, g: Group)
    requires Grows(group, paths, g)
    requires InteriorDisjoint(g)
    requires 0 < |g| <= ants
    ensures g in SearchPaths(ants, paths, group)
    decreases |g| - |group|
  {
    var n := |group|;
    if |g| == n {
      assert g == g[..n];
    } else {
      var c := g[n];
      assert g[n..] == [c] + g[n + 1..];
      var i := IndexOfMember(paths, c);
      var rest := Without(paths, i);
      assert g[..n + 1] == group + [c];
      assert !Blocked(group, c) by {
        assert g[..n] == group;
      }
      assert multiset(g[n..]) == multiset{c} + multiset(g[n + 1..]);
      assert multiset(g[n + 1..]) <= multiset(rest) by {
        forall x
          ensures multiset(g[n + 1..])[x] <= multiset(rest)[x]
        {
          assert multiset(g[n..])[x] <= multiset(paths)[x];
        }
      }
      SearchFindsEveryGroup(ants, rest, group + [c], g);
      SearchFromIncludes(ants, paths, group, 0, i, g);
    }
  }

  /**
   * The groups SearchPaths records from an interior-disjoint starting group
   * of at most `ants` paths are exactly its interior-disjoint, non-empty
   * extensions by at most `ants` candidates.
   */
  lemma SearchPathsRecordsExactly(ants: int, paths: seq<Path>, group: Group, g: Group)
    requires ants > 0 && |group| <= ants && InteriorDisjoint(group)
    ensures g in SearchPaths(ants, paths, group) <==>
      Grows(group, paths, g) && InteriorDisjoint(g) && 0 < |g| <= ants
  {
    if Grows(group, paths, g) && InteriorDisjoint(g) && 0 < |g| <= ants {
      SearchFindsEveryGroup(ants, paths, group, g);
    }
  }

  /** A full group is recorded and its branch stops there. */
  lemma FullGroupStops(ants: int, paths: seq<Path>, group: Group)
    requires |group| == ants
    ensures SearchPaths(ants, paths, group) == [group]
  {
  }

  /** A non-empty group below the cap is recorded last, when its candidate loop is done. */
  lemma OpenGroupRecordedLast(ants: int, paths: seq<Path>, group: Group)
    requires 0 < |group| != ants
    ensures var groups := SearchPaths(ants, paths, group); |groups| > 0 && groups[|groups| - 1] == group
  {
  }

  // ------------------------------------------------------- MoveAntsToEnd

  /**
   * The search as MoveAntsToEnd starts it: when the shortest path is a direct
   * start-end tunnel it is seeded into the group, otherwise the group is empty.
   */
  function AllGroups(ants: int, paths: seq<Path>): (groups: seq<Group>)
    requires |paths| > 0
    ensures ants > 0 ==> forall g :: g in groups ==> 0 < |g| <= ants && InteriorDisjoint(g)
    ensures |paths[0]| == 2 ==> forall g :: g in groups ==> |g| > 0 && g[0] == paths[0]
  {
    if |paths[0]| == 2 then SearchPaths(ants, paths[1..], [paths[0]])
    else SearchPaths(ants, paths, [])
  }

  /** The recorded groups, described without the search. */
  predicate IsCandidateGroup(ants: int, paths: seq<Path>, g: Group)
    requires |paths| > 0
  {
    && 0 < |g| <= ants
    && InteriorDisjoint(g)
    && multiset(g) <= multiset(paths)
    && (|paths[0]| == 2 ==> g[0] == paths[0])
  }

  /** With equal heads, one list is a sub-multiset of the other exactly when their tails are. */
  lemma SubMultisetOfTails(g: Group, paths: seq<Path>)
    requires |g| > 0 && |paths| > 0 && g[0] == paths[0]
    ensures multiset(g) <= multiset(paths) <==> multiset(g[1..]) <= multiset(paths[1..])
  {
    assert g == [g[0]] + g[1..];
    assert paths == [paths[0]] + paths[1..];
    assert multiset(g) == multiset{g[0]} + multiset(g[1..]);
    assert multiset(paths) == multiset{paths[0]} + multiset(paths[1..]);
    if multiset(g) <= multiset(paths) {
      forall x
        ensures multiset(g[1..])[x] <= multiset(paths[1..])[x]
      {
        assert multiset(g)[x] <= multiset(paths)[x];
      }
    }
  }

  lemma SeededGroupsAreCandidates(ants: int, paths: seq<Path>, g: Group)
    requires ants > 0 && |paths| > 0 && |paths[0]| == 2
    ensures g in SearchPaths(ants, paths[1..], [paths[0]]) <==> IsCandidateGroup(ants, paths, g)
  {
    var seed := [paths[0]];
    assert InteriorDisjoint(seed) by {
      assert seed[..0] == [];
    }
    SearchPathsRecordsExactly(ants, paths[1..], seed, g);
    if |g| > 0 {
      assert g[..1] == [g[0]];
      if g[0] == paths[0] {
        SubMultisetOfTails(g, paths);
      }
    }
  }

  lemma OpenGroupsAreCandidates(ants: int, paths: seq<Path>, g: Group)
    requires ants > 0 && |paths| > 0 && |paths[0]| != 2
    ensures g in SearchPaths(ants, paths, []) <==> IsCandidateGroup(ants, paths, g)
  {
    assert InteriorDisjoint([]);
    SearchPathsRecordsExactly(ants, paths, [], g);
    assert g[..0] == [] && g[0..] == g;
  }

  /**
   * The groups MoveAntsToEnd chooses from are exactly the non-empty,
   * interior-disjoint selections of at most `ants` distinct discovered paths,
   * all led by the direct tunnel when there is one.
   */
  lemma AllGroupsAreCandidates(ants: int, paths: seq<Path>, g: Group)
    requires ants > 0 && |paths| > 0
    ensures g in AllGroups(ants, paths) <==> IsCandidateGroup(ants, paths, g)
  {
    if |paths[0]| == 2 {
      SeededGroupsAreCandidates(ants, paths, g);
    } else {
      OpenGroupsAreCandidates(ants, paths, g);
    }
  }

  /** The single shortest path always forms a recorded group on its own. */
  lemma ShortestAloneIsRecorded(ants: int, paths: seq<Path>)
    requires ants > 0 && |paths| > 0
    ensures [paths[0]] in AllGroups(ants, paths)
  {
    var g := [paths[0]];
    assert InteriorDisjoint(g) by {
      assert g[..0] == [];
    }
    assert multiset(g) <= multiset(paths) by {
      assert paths == [paths[0]] + paths[1..];
    }
    AllGroupsAreCandidates(ants, paths, g);
  }

  // -------------------------------------------------------------- scoring

  /** Go's `/` on int: the quotient truncated toward zero. */
  function GoDiv(a: int, b: int): (q: int)
    requires b > 0
    ensures a >= 0 ==> 0 <= a - q * b < b
    ensures a < 0 ==> -b < a - q * b <= 0
  {
    if a >= 0 then a / b else -((-a) / b)
  }

  /** bandwidth: the product of the path lengths. */
  function Bandwidth(g: Group): int
    decreases |g|
  {
    if |g| == 0 then 1 else Bandwidth(g[..|g| - 1]) * |g[|g| - 1]|
  }

  /** multiSum: the sum of bandwidth / len(path). */
  function WeightSum(g: Group, bw: int): int
    requires forall k :: 0 <= k < |g| ==> |g[k]| > 0
    decreases |g|
  {
    if |g| == 0 then 0 else WeightSum(g[..|g| - 1], bw) + GoDiv(bw, |g[|g| - 1]|)
  }

  lemma {:induction false} BandwidthCoversLengths(g: Group)
    requires forall k :: 0 <= k < |g| ==> |g[k]| > 0
    ensures Bandwidth(g) >= 1
    ensures forall k :: 0 <= k < |g| ==> Bandwidth(g) >= |g[k]|
    decreases |g|
  {
    if |g| > 0 {
      var init := g[..|g| - 1];
      var last := |g[|g| - 1]|;
      BandwidthCoversLengths(init);
      var b := Bandwidth(init);
      ProductCovers(b, last);
      assert Bandwidth(g) == b * last;
      forall k | 0 <= k < |g|
        ensures Bandwidth(g) >= |g[k]|
      {
        if k < |g| - 1 {
          assert init[k] == g[k];
        }
      }
    }
  }

  lemma ProductCovers(b: int, l: int)
    requires b >= 1 && l >= 1
    ensures b * l >= b && b * l >= l
  {
    assert b * l - l == (b - 1) * l;
    assert b * l - b == b * (l - 1);
  }

  lemma {:induction false} WeightAtLeastSize(g: Group, bw: int)
    requires forall k :: 0 <= k < |g| ==> 0 < |g[k]| <= bw
    ensures WeightSum(g, bw) >= |g|
    decreases |g|
  {
    if |g| > 0 {
      WeightAtLeastSize(g[..|g| - 1], bw);
    }
  }

  /** turns: ants * bandwidth / multiSum, the score MoveAntsToEnd minimises. */
  function Turns(ants: int, g: Group): (t: int)
    requires ValidGroup(g)
    ensures ants >= 0 ==> 0 <= t <= ants * Bandwidth(g)
    ensures |g| == 1 ==> t == ants * |g[0]|
  {
    var bw := Bandwidth(g);
    BandwidthCoversLengths(g);
    WeightAtLeastSize(g, bw);
    var w := WeightSum(g, bw);
    QuotientBounds(ants * bw, w);
    SinglePathScore(g);
    GoDiv(ants * bw, w)
  }

  /** A non-negative amount divided by a positive divisor lies between 0 and the amount. */
  lemma QuotientBounds(a: int, b: int)
    requires b > 0
    ensures a >= 0 ==> 0 <= GoDiv(a, b) <= a
  {
    if a >= 0 {
      var q := GoDiv(a, b);
      var m := q * b;
      assert 0 <= a - m < b;
      if q < 0 {
        NegativeProduct(q, b);
      } else {
        MulGrows(q, b);
      }
    }
  }

  lemma MulGrows(x: int, y: int)
    requires x >= 0 && y >= 1
    ensures x * y >= x
  {
    assert x * y - x == x * (y - 1);
  }

  lemma NegativeProduct(q: int, b: int)
    requires q < 0 && b > 0
    ensures q * b <= -b
  {
    MulGrows(b, -q);
    assert b * (-q) == -(q * b);
  }

  /** A one-path group has bandwidth len(path) and weight 1. */
  lemma SinglePathScore(g: Group)
    ensures |g| == 1 && |g[0]| > 0 ==> Bandwidth(g) == |g[0]| && WeightSum(g, |g[0]|) == 1
  {
    if |g| == 1 && |g[0]| > 0 {
      assert g[..0] == [];
      assert Bandwidth(g) == Bandwidth([]) * |g[0]|;
      assert WeightSum(g, |g[0]|) == WeightSum([], |g[0]|) + GoDiv(|g[0]|, |g[0]|);
    }
  }

  /** Dividing a multiple of `y` by `y` is exact. */
  lemma ExactDiv(x: int, y: int)
    requires y > 0
    ensures GoDiv(x * y, y) == x
  {
    var q := GoDiv(x * y, y);
    assert x * y - q * y == (x - q) * y;
    if x - q >= 1 {
      MulGrows(y, x - q);
    } else if x - q <= -1 {
      NegativeProduct(x - q, y);
    }
  }

  /** The product of the lengths of every path of `g` except the one at index `k`. */
  function Others(g: Group, k: nat): int
    decreases |g|
  {
    if |g| == 0 then 1
    else Others(g[..|g| - 1], k) * (if k == |g| - 1 then 1 else |g[|g| - 1]|)
  }

  /** The bandwidth is the length of any one path times the product of the others. */
  lemma {:induction false} BandwidthSplits(g: Group, k: nat)
    requires k < |g|
    ensures Bandwidth(g) == Others(g, k) * |g[k]|
    decreases |g|
  {
    var init, last := g[..|g| - 1], |g[|g| - 1]|;
    if k == |g| - 1 {
      OthersOfAll(init, k);
    } else {
      assert init[k] == g[k];
      BandwidthSplits(init, k);
      assert Bandwidth(g) == Others(init, k) * |g[k]| * last;
      assert Others(g, k) == Others(init, k) * last;
    }
  }

  /** Leaving out an index past the end leaves out nothing. */
  lemma {:induction false} OthersOfAll(g: Group, k: nat)
    requires k >= |g|
    ensures Others(g, k) == Bandwidth(g)
    decreases |g|
  {
    if |g| > 0 {
      OthersOfAll(g[..|g| - 1], k);
    }
  }

  /**
   * Every term bandwidth / len(path) of the weight sum is exact: it is the
   * product of the other paths' lengths, and times len(path) it gives the
   * bandwidth back.
   */
  lemma ExactQuotients(g: Group)
    requires ValidGroup(g)
    ensures forall k :: 0 <= k < |g| ==>
      GoDiv(Bandwidth(g), |g[k]|) == Others(g, k) &&
      GoDiv(Bandwidth(g), |g[k]|) * |g[k]| == Bandwidth(g)
  {
    forall k | 0 <= k < |g|
      ensures GoDiv(Bandwidth(g), |g[k]|) == Others(g, k)
      ensures GoDiv(Bandwidth(g), |g[k]|) * |g[k]| == Bandwidth(g)
    {
      BandwidthSplits(g, k);
      ExactDiv(Others(g, k), |g[k]|);
    }
  }

  /** The sum over the first `n` paths of the product of the other paths' lengths. */
  function OthersSum(g: Group, n: nat): int
    requires n <= |g|
  {
    if n == 0 then 0 else OthersSum(g, n - 1) + Others(g, n - 1)
  }

  /** Over the first `n` paths the weight sum adds, for each path, the product of the other lengths. */
  lemma {:induction false} WeightSumPrefix(g: Group, n: nat)
    requires ValidGroup(g) && n <= |g|
    ensures WeightSum(g[..n], Bandwidth(g)) == OthersSum(g, n)
  {
    if n == 0 {
      assert g[..0] == [];
    } else {
      var bw := Bandwidth(g);
      var prefix := g[..n];
      assert prefix[..n - 1] == g[..n - 1];
      assert prefix[n - 1] == g[n - 1];
      WeightSumPrefix(g, n - 1);
      ExactQuotients(g);
      assert WeightSum(prefix, bw) == WeightSum(g[..n - 1], bw) + GoDiv(bw, |g[n - 1]|);
    }
  }

  /**
   * The score in closed form: ants times the product of all lengths,
   * divided by the sum over the paths of the product of the other lengths.
   */
  lemma TurnsClosedForm(ants: int, g: Group)
    requires ValidGroup(g)
    ensures OthersSum(g, |g|) >= |g|
    ensures Turns(ants, g) == GoDiv(ants * Bandwidth(g), OthersSum(g, |g|))
  {
    WeightSumPrefix(g, |g|);
    assert g[..|g|] == g;
    BandwidthCoversLengths(g);
    WeightAtLeastSize(g, Bandwidth(g));
  }

  /** The score of two paths p and q: ants * (|p| * |q|) / (|p| + |q|). */
  lemma TwoPathScore(ants: int, p: Path, q: Path)
    requires |p| > 0 && |q| > 0
    ensures Turns(ants, [p, q]) == GoDiv(ants * (|p| * |q|), |p| + |q|)
  {
    var g := [p, q];
    assert g[..1] == [p] && [p][..0] == [];
    var bw := |p| * |q|;
    assert Bandwidth(g) == Bandwidth([p]) * |q|;
    assert Bandwidth([p]) == Bandwidth([]) * |p|;
    ExactDiv(|q|, |p|);
    ExactDiv(|p|, |q|);
    assert GoDiv(bw, |p|) == |q| by { assert bw == |q| * |p|; }
    assert WeightSum(g, bw) == WeightSum([p], bw) + GoDiv(bw, |q|);
    assert WeightSum([p], bw) == WeightSum([], bw) + GoDiv(bw, |p|);
  }

  /**
   * The selection loop of MoveAntsToEnd: the index of the first group whose
   * score is minimal (a later group replaces the best only when strictly
   * better), or None when there are no groups.
   */
  function BestGroup(ants: int, groups: seq<Group>): (best: Option<nat>)
    requires forall k :: 0 <= k < |groups| ==> ValidGroup(groups[k])
    ensures best.None? <==> |groups| == 0
    ensures best.Some? ==>
      && best.value < |groups|
      && (forall j :: 0 <= j < |groups| ==> Turns(ants, groups[best.value]) <= Turns(ants, groups[j]))
      && (forall j :: 0 <= j < best.value ==> Turns(ants, groups[j]) > Turns(ants, groups[best.value]))
    decreases |groups|
  {
    if |groups| == 0 then None
    else
      var last := |groups| - 1;
      var init := groups[..last];
      assert forall j :: 0 <= j < last ==> init[j] == groups[j];
      match BestGroup(ants, init)
      case None => Some(last)
      case Some(k) =>
        if Turns(ants, groups[last]) < Turns(ants, groups[k]) then Some(last) else Some(k)
  }

  lemma RecordedGroupsValid(ants: int, paths: seq<Path>)
    requires ants > 0 && |paths| > 0
    requires forall k :: 0 <= k < |paths| ==> |paths[k]| > 0
    ensures forall g :: g in AllGroups(ants, paths) ==> ValidGroup(g) && IsCandidateGroup(ants, paths, g)
  {
    forall g | g in AllGroups(ants, paths)
      ensures ValidGroup(g) && IsCandidateGroup(ants, paths, g)
    {
      AllGroupsAreCandidates(ants, paths, g);
      forall k | 0 <= k < |g|
        ensures |g[k]| > 0
      {
        assert g[k] in multiset(g);
        assert g[k] in multiset(paths);
      }
    }
  }

  /**
   * MoveAntsToEnd: search the groups and return the first one of minimal
   * score.
   */
  function MoveAntsToEnd(ants: int, paths: seq<Path>): (solution: Group)
    requires ants > 0 && |paths| > 0
    requires forall k :: 0 <= k < |paths| ==> |paths[k]| > 0
    ensures solution in AllGroups(ants, paths)
    ensures ValidGroup(solution) && IsCandidateGroup(ants, paths, solution)
    ensures forall g :: g in AllGroups(ants, paths) ==>
      ValidGroup(g) && Turns(ants, solution) <= Turns(ants, g)
  {
    var groups := AllGroups(ants, paths);
    RecordedGroupsValid(ants, paths);
    ShortestAloneIsRecorded(ants, paths);
    var best := BestGroup(ants, groups);
    groups[best.value]
  }

  /** Ties go to the group the search recorded first. */
  lemma MoveAntsToEndKeepsFirstMinimum(ants: int, paths: seq<Path>)
    requires ants > 0 && |paths| > 0
    requires forall k :: 0 <= k < |paths| ==> |paths[k]| > 0
    ensures var groups := AllGroups(ants, paths);
      && (forall j :: 0 <= j < |groups| ==> ValidGroup(groups[j]))
      && exists i :: 0 <= i < |groups| && groups[i] == MoveAntsToEnd(ants, paths) &&
           (forall j :: 0 <= j < i ==> Turns(ants, groups[j]) > Turns(ants, groups[i]))
  {
    var groups := AllGroups(ants, paths);
    RecordedGroupsValid(ants, paths);
    ShortestAloneIsRecorded(ants, paths);
    assert forall j :: 0 <= j < |groups| ==> groups[j] in groups;
    var best := BestGroup(ants, groups);
    assert groups[best.value] == MoveAntsToEnd(ants, paths);
  }
}

=== FILE: paths.dfy ===
/**
 * Path enumeration (DepthSearch and FindAllPaths, internal/core/core.go):
 * a backtracking depth-first search that lists every simple start-to-end
 * path, then a sort by length and the "no paths" error.
 */
module Paths {
  import opened Wrappers
  import opened Entity
  import opened Adjacency

  /** Each room of `s` after the first is a neighbour of the room before it. */
  predicate IsWalk(adj: Adjacents, s: seq<Room>) {
    forall k :: 0 <= k < |s| - 1 ==> s[k + 1] in Neighbours(adj, s[k])
  }

  /** A simple path from `start` to `end` through the tunnels of `adj`. */
  predicate IsSimplePath(adj: Adjacents, start: Room, end: Room, p: Path) {
    && |p| > 0
    && p[0] == start
    && p[|p| - 1] == end
    && Distinct(p)
    && IsWalk(adj, p)
  }

  /**
   * `s` is a simple walk that ends at `end` and avoids every room of `visited`:
   * what the search may still append below the current room.
   */
  predicate Completes(adj: Adjacents, end: Room, visited: set<Room>, s: seq<Room>) {
    && |s| > 0
    && s[|s| - 1] == end
    && IsWalk(adj, s)
    && Distinct(s)
    && forall k :: 0 <= k < |s| ==> s[k] !in visited
  }

  /** The paths a search call appended and the visited marks it hands back. */
  datatype Found = Found(paths: seq<Path>, visited: set<Room>)

  lemma CardinalityStep(keys: set<Room>, visited: set<Room>, r: Room)
    requires r in keys && r !in visited
    ensures |keys - (visited + {r})| + 1 == |keys - visited|
  {
    assert keys - visited == (keys - (visited + {r})) + {r};
  }

  /** `p` continues `prefix` with a walk that `Completes` from the rooms not in `visited`. */
  predicate Extends(adj: Adjacents, end: Room, visited: set<Room>, prefix: seq<Room>, p: Path) {
    && |p| > |prefix|
    && p[..|prefix|] == prefix
    && Completes(adj, end, visited, p[|prefix|..])
  }

  /**
   * DepthSearch. `trail` stands for the parent pointers of the Go code: it lists
   * the rooms on the active search stack below `current`. Reaching `end`
   * records `trail + [end]`; otherwise `current` is marked, its unmarked
   * neighbours are explored in order, and the mark is removed again.
   */
  function Dfs(adj: Adjacents, end: Room, current: Room, trail: seq<Room>, visited: set<Room>): (r: Found)
    requires current !in visited
    ensures r.visited == visited
    ensures forall p :: p in r.paths ==> Extends(adj, end, visited, trail, p) && p[|trail|] == current
    decreases |adj.Keys - visited|, 1, 0
  {
    if current == end then
      assert (trail + [current])[|trail|..] == [current];
      Found([trail + [current]], visited)
    else if current !in adj then
      // no tunnels: marking and unmarking `current` leaves nothing behind
      Found([], visited)
    else
      CardinalityStep(adj.Keys, visited, current);
      var kids := Neighbours(adj, current);
      var below := DfsChildren(adj, end, current, trail, visited + {current}, kids, 0);
      ExtendByCurrent(adj, end, current, trail, visited, kids, below.paths);
      Found(below.paths, below.visited - {current})
  }

  lemma ExtendByCurrent(adj: Adjacents, end: Room, current: Room, trail: seq<Room>,
                        visited: set<Room>, kids: seq<Room>, paths: seq<Path>)
    requires current !in visited
    requires kids == Neighbours(adj, current)
    requires forall p :: p in paths ==>
      Extends(adj, end, visited + {current}, trail + [current], p) && p[|trail| + 1] in kids
    ensures forall p :: p in paths ==> Extends(adj, end, visited, trail, p) && p[|trail|] == current
  {
    forall p | p in paths
      ensures Extends(adj, end, visited, trail, p) && p[|trail|] == current
    {
      var tail := p[|trail| + 1..];
      var s := p[|trail|..];
      assert p[..|trail| + 1] == trail + [current];
      assert p[..|trail|] == trail;
      assert p[|trail|] == current;
      assert s == [current] + tail;
      assert Completes(adj, end, visited, s) by {
        assert forall k :: 0 < k < |s| ==> s[k] == tail[k - 1];
        assert forall k :: 0 < k < |s| ==> s[k] != current;
      }
    }
  }

  /** The loop of DepthSearch over `kids[i..]`, with the visited marks threaded through. */
  function DfsChildren(adj: Adjacents, end: Room, current: Room, trail: seq<Room>,
                       visited: set<Room>, kids: seq<Room>, i: nat): (r: Found)
    requires current in visited
    requires i <= |kids|
    ensures r.visited == visited
    ensures forall p :: p in r.paths ==>
      Extends(adj, end, visited, trail + [current], p) && p[|trail| + 1] in kids[i..]
    decreases |adj.Keys - visited| + 1, 0, |kids| - i
  {
    if i == |kids| then Found([], visited)
    else
      assert kids[i..] == [kids[i]] + kids[i + 1..];
      if kids[i] in visited then DfsChildren(adj, end, current, trail, visited, kids, i + 1)
      else
        var sub := Dfs(adj, end, kids[i], trail + [current], visited);
        var rest := DfsChildren(adj, end, current, trail, sub.visited, kids, i + 1);
        Found(sub.paths + rest.paths, rest.visited)
  }

  /** The search as FindAllPaths starts it: from `start`, nothing marked, no parents. */
  function DepthSearch(adj: Adjacents, start: Room, end: Room): (r: Found)
    ensures r.visited == {}
    ensures forall p :: p in r.paths ==> IsSimplePath(adj, start, end, p)
  {
    var r := Dfs(adj, end, start, [], {});
    assert forall p :: p in r.paths ==> p[0..] == p && Extends(adj, end, {}, [], p);
    r
  }

  // ---------------------------------------------------------- completeness

  /** Every simple continuation of `trail` through `current` is recorded. */
  lemma {:induction false} DfsComplete(adj: Adjacents, end: Room, current: Room, trail: seq<Room>,
                                       visited: set<Room>, s: seq<Room>)
    requires current !in visited
    requires Completes(adj, end, visited, s) && s[0] == current
    ensures trail + s in Dfs(adj, end, current, trail, visited).paths
    decreases |adj.Keys - visited|, 1, 0
  {
    if current == end {
      assert s[0] == s[|s| - 1];
      assert s == [current];
    } else {
      FirstStep(adj, end, visited, s);
      CardinalityStep(adj.Keys, visited, current);
      var kids := Neighbours(adj, current);
      var j :| 0 <= j < |kids| && kids[j] == s[1];
      DfsChildrenComplete(adj, end, current, trail, visited + {current}, kids, 0, j, s[1..]);
      DfsBelow(adj, end, current, trail, visited);
      ConsAfter(trail, s);
    }
  }

  /** Away from `end`, a room with tunnels records what the loop over its neighbours records. */
  lemma DfsBelow(adj: Adjacents, end: Room, current: Room, trail: seq<Room>, visited: set<Room>)
    requires current !in visited && current != end && current in adj
    ensures Dfs(adj, end, current, trail, visited).paths ==
      DfsChildren(adj, end, current, trail, visited + {current}, Neighbours(adj, current), 0).paths
  {
  }

  lemma ConsAfter(trail: seq<Room>, s: seq<Room>)
    requires |s| > 0
    ensures trail + [s[0]] + s[1..] == trail + s
  {
    assert s == [s[0]] + s[1..];
  }

  /** A continuation that does not stop at its first room steps to a neighbour and completes from there. */
  lemma FirstStep(adj: Adjacents, end: Room, visited: set<Room>, s: seq<Room>)
    requires Completes(adj, end, visited, s) && s[0] != end
    ensures |s| > 1 && s[1] in Neighbours(adj, s[0]) && s[0] in adj
    ensures Completes(adj, end, visited + {s[0]}, s[1..])
  {
    assert s[0] != s[|s| - 1];
    TailCompletes(adj, end, visited, s);
  }

  lemma TailCompletes(adj: Adjacents, end: Room, visited: set<Room>, s: seq<Room>)
    requires Completes(adj, end, visited, s) && |s| > 1
    ensures Completes(adj, end, visited + {s[0]}, s[1..])
  {
    var tail := s[1..];
    assert forall k :: 0 <= k < |tail| ==> tail[k] == s[k + 1];
    assert forall k :: 0 <= k < |tail| ==> tail[k] != s[0];
  }

  lemma {:induction false} DfsChildrenComplete(adj: Adjacents, end: Room, current: Room, trail: seq<Room>,
                                               visited: set<Room>, kids: seq<Room>, i: nat, j: nat,
                                               s: seq<Room>)
    requires current in visited
    requires i <= j < |kids|
    requires Completes(adj, end, visited, s) && s[0] == kids[j]
    ensures trail + [current] + s in DfsChildren(adj, end, current, trail, visited, kids, i).paths
    decreases |adj.Keys - visited| + 1, 0, |kids| - i
  {
    if kids[i] in visited {
      assert i < j;
      DfsChildrenComplete(adj, end, current, trail, visited, kids, i + 1, j, s);
    } else if i < j {
      DfsChildrenComplete(adj, end, current, trail, visited, kids, i + 1, j, s);
    } else {
      DfsComplete(adj, end, kids[i], trail + [current], visited, s);
    }
  }

  /** DepthSearch finds every simple start-to-end path, and nothing else. */
  lemma DepthSearchFindsExactlySimplePaths(adj: Adjacents, start: Room, end: Room, p: Path)
    ensures p in DepthSearch(adj, start, end).paths <==> IsSimplePath(adj, start, end, p)
  {
    if IsSimplePath(adj, start, end, p) {
      DfsComplete(adj, end, start, [], {}, p);
      assert [] + p == p;
    }
  }

  // ----------------------------------------------------------- no repeats

  /**
   * No neighbour list repeats a room. A tunnel given twice, in either
   * orientation, or a tunnel from a room to itself breaks this; the search
   * then lists some routes more than once.
   */
  predicate ListsDistinct(adj: Adjacents) {
    forall r :: r in adj ==> Distinct(adj[r])
  }

  /** Two repeat-free lists with nothing in common concatenate to a repeat-free list. */
  lemma DistinctConcat<T>(a: seq<T>, b: seq<T>)
    requires Distinct(a) && Distinct(b)
    requires forall x :: x in a ==> x !in b
    ensures Distinct(a + b)
  {
    forall i, j | 0 <= i < j < |a + b|
      ensures (a + b)[i] != (a + b)[j]
    {
      if i < |a| && j >= |a| {
        assert (a + b)[i] in a && (a + b)[j] == b[j - |a|];
      }
    }
  }

  /** With repeat-free neighbour lists, a search call records each path at most once. */
  lemma {:induction false} DfsListsOnce(adj: Adjacents, end: Room, current: Room, trail: seq<Room>,
                                        visited: set<Room>)
    requires current !in visited && ListsDistinct(adj)
    ensures Distinct(Dfs(adj, end, current, trail, visited).paths)
    decreases |adj.Keys - visited|, 1, 0
  {
    if current != end && current in adj {
      CardinalityStep(adj.Keys, visited, current);
      DfsChildrenListOnce(adj, end, current, trail, visited + {current}, Neighbours(adj, current), 0);
      DfsBelow(adj, end, current, trail, visited);
    }
  }

  /**
   * The loop over repeat-free neighbours records each path at most once: the
   * paths found through `kids[i]` all continue with `kids[i]`, and those found
   * later continue with a different neighbour.
   */
  lemma {:induction false} DfsChildrenListOnce(adj: Adjacents, end: Room, current: Room, trail: seq<Room>,
                                               visited: set<Room>, kids: seq<Room>, i: nat)
    requires current in visited && i <= |kids|
    requires Distinct(kids) && ListsDistinct(adj)
    ensures Distinct(DfsChildren(adj, end, current, trail, visited, kids, i).paths)
    decreases |adj.Keys - visited| + 1, 0, |kids| - i
  {
    if i < |kids| {
      if kids[i] in visited {
        DfsChildrenListOnce(adj, end, current, trail, visited, kids, i + 1);
      } else {
        var sub := Dfs(adj, end, kids[i], trail + [current], visited);
        DfsListsOnce(adj, end, kids[i], trail + [current], visited);
        var rest := DfsChildren(adj, end, current, trail, sub.visited, kids, i + 1);
        DfsChildrenListOnce(adj, end, current, trail, sub.visited, kids, i + 1);
        var n := |trail| + 1;
        assert forall p :: p in sub.paths ==> n < |p| && p[n] == kids[i];
        assert forall p :: p in rest.paths ==> n < |p| && p[n] in kids[i + 1..];
        SeparatedByStep(sub.paths, rest.paths, n, kids, i);
        DistinctConcat(sub.paths, rest.paths);
      }
    }
  }

  /** Paths that take `kids[i]` at step `n` share nothing with paths that take a later, different kid there. */
  lemma SeparatedByStep(first: seq<Path>, later: seq<Path>, n: nat, kids: seq<Room>, i: nat)
    requires i < |kids| && Distinct(kids)
    requires forall p :: p in first ==> n < |p| && p[n] == kids[i]
    requires forall p :: p in later ==> n < |p| && p[n] in kids[i + 1..]
    ensures forall p :: p in first ==> p !in later
  {
    assert kids[i] !in kids[i + 1..] by {
      forall m | i + 1 <= m < |kids|
        ensures kids[m] != kids[i]
      {
      }
    }
  }

  /** DepthSearch lists no path twice when no neighbour list repeats a room. */
  lemma DepthSearchListsOnce(adj: Adjacents, start: Room, end: Room)
    requires ListsDistinct(adj)
    ensures Distinct(DepthSearch(adj, start, end).paths)
  {
    DfsListsOnce(adj, end, start, [], {});
  }

  // --------------------------------------------------------------- sorting

  predicate SortedByLength(paths: seq<Path>) {
    forall i, j :: 0 <= i < j < |paths| ==> |paths[i]| <= |paths[j]|
  }

  function InsertByLength(p: Path, sorted: seq<Path>): (r: seq<Path>)
    requires SortedByLength(sorted)
    ensures SortedByLength(r)
    ensures multiset(r) == multiset(sorted) + multiset{p}
    ensures |r| == |sorted| + 1
    ensures r[0] == p || (|sorted| > 0 && r[0] == sorted[0])
    decreases |sorted|
  {
    if |sorted| == 0 || |p| <= |sorted[0]| then [p] + sorted
    else
      var rest := InsertByLength(p, sorted[1..]);
      assert |sorted[0]| <= |rest[0]| by {
        if |sorted| > 1 {
          assert sorted[1..][0] == sorted[1];
        }
      }
      assert sorted == [sorted[0]] + sorted[1..];
      [sorted[0]] + rest
  }

  /**
   * The sort of FindAllPaths. sort.Slice with "shorter first" is not stable;
   * this is one of the orders it may produce.
   */
  function SortByLength(paths: seq<Path>): (r: seq<Path>)
    ensures SortedByLength(r)
    ensures multiset(r) == multiset(paths)
    decreases |paths|
  {
    if |paths| == 0 then []
    else
      assert paths == [paths[0]] + paths[1..];
      InsertByLength(paths[0], SortByLength(paths[1..]))
  }

  /** A list is repeat-free exactly when no element occurs in it more than once. */
  lemma {:induction false} DistinctIffSingleCounts<T>(s: seq<T>)
    ensures Distinct(s) <==> forall x :: multiset(s)[x] <= 1
    decreases |s|
  {
    if |s| > 0 {
      var t := s[1..];
      DistinctIffSingleCounts(t);
      assert s == [s[0]] + t;
      assert multiset(s) == multiset{s[0]} + multiset(t);
      assert Distinct(s) <==> Distinct(t) && s[0] !in t by {
        if Distinct(s) {
          forall i, j | 0 <= i < j < |t|
            ensures t[i] != t[j]
          {
            assert t[i] == s[i + 1] && t[j] == s[j + 1];
          }
          forall m | 0 <= m < |t|
            ensures t[m] != s[0]
          {
            assert t[m] == s[m + 1];
          }
        }
        if Distinct(t) && s[0] !in t {
          forall i, j | 0 <= i < j < |s|
            ensures s[i] != s[j]
          {
            assert s[j] == t[j - 1];
            if i > 0 {
              assert s[i] == t[i - 1];
            }
          }
        }
      }
      assert s[0] in t <==> multiset(t)[s[0]] > 0;
      forall x
        ensures multiset(s)[x] == multiset(t)[x] + (if x == s[0] then 1 else 0)
      {
      }
      if forall x :: multiset(s)[x] <= 1 {
        assert multiset(s)[s[0]] <= 1;
        forall x
          ensures multiset(t)[x] <= 1
        {
          assert multiset(s)[x] <= 1;
        }
      }
    }
  }

  /** Reordering keeps a list repeat-free. */
  lemma DistinctPermutation<T>(a: seq<T>, b: seq<T>)
    requires multiset(a) == multiset(b) && Distinct(a)
    ensures Distinct(b)
  {
    DistinctIffSingleCounts(a);
    DistinctIffSingleCounts(b);
  }

  /**
   * FindAllPaths: build the adjacency, search from the start room, sort the
   * discovered paths by length, and fail when there are none.
   */
  function FindAllPaths(positions: seq<Position>, start: Room, end: Room): (r: Result<seq<Path>, Error>)
    ensures r.Failure? <==> |DepthSearch(ParseAdjacents(positions), start, end).paths| == 0
    ensures r.Failure? ==> r.error == NoPaths
    ensures r.Success? ==>
      && SortedByLength(r.value)
      && multiset(r.value) == multiset(DepthSearch(ParseAdjacents(positions), start, end).paths)
  {
    var found := DepthSearch(ParseAdjacents(positions), start, end).paths;
    var sorted := SortByLength(found);
    if |sorted| == 0 then
      assert |multiset(found)| == 0;
      Failure(NoPaths)
    else
      Success(sorted)
  }

  /** A route through the tunnels: simple, from start to end, each step one tunnel. */
  predicate IsRoute(positions: seq<Position>, start: Room, end: Room, p: Path) {
    && |p| > 0
    && p[0] == start
    && p[|p| - 1] == end
    && Distinct(p)
    && forall k :: 0 <= k < |p| - 1 ==> Tunnel(positions, p[k], p[k + 1])
  }

  lemma RouteIffSimplePath(positions: seq<Position>, start: Room, end: Room, p: Path)
    ensures IsRoute(positions, start, end, p) <==> IsSimplePath(ParseAdjacents(positions), start, end, p)
  {
    forall k | 0 <= k < |p| - 1
      ensures Tunnel(positions, p[k], p[k + 1]) <==> p[k + 1] in Neighbours(ParseAdjacents(positions), p[k])
    {
      NeighbourIffTunnel(positions, p[k], p[k + 1]);
    }
  }

  lemma FoundIffRoute(positions: seq<Position>, start: Room, end: Room, p: Path)
    ensures p in DepthSearch(ParseAdjacents(positions), start, end).paths <==> IsRoute(positions, start, end, p)
  {
    DepthSearchFindsExactlySimplePaths(ParseAdjacents(positions), start, end, p);
    RouteIffSimplePath(positions, start, end, p);
  }

  /**
   * FindAllPaths succeeds exactly when some route joins start and end; then it
   * lists every route, each one a real route, shortest first, and each only
   * once when no neighbour list repeats a room.
   */
  lemma FindAllPathsIsAllRoutes(positions: seq<Position>, start: Room, end: Room)
    ensures FindAllPaths(positions, start, end).Failure? <==>
      forall p: Path :: !IsRoute(positions, start, end, p)
    ensures FindAllPaths(positions, start, end).Success? ==>
      var paths := FindAllPaths(positions, start, end).value;
      && |paths| > 0
      && SortedByLength(paths)
      && (forall p :: p in paths <==> IsRoute(positions, start, end, p))
      && (ListsDistinct(ParseAdjacents(positions)) ==> Distinct(paths))
  {
    var found := DepthSearch(ParseAdjacents(positions), start, end).paths;
    var r := FindAllPaths(positions, start, end);
    if r.Success? {
      forall p: Path
        ensures p in r.value <==> IsRoute(positions, start, end, p)
      {
        FoundIffRoute(positions, start, end, p);
        assert p in r.value <==> p in multiset(r.value);
        assert p in found <==> p in multiset(found);
      }
      FoundIffRoute(positions, start, end, r.value[0]);
      if ListsDistinct(ParseAdjacents(positions)) {
        DepthSearchListsOnce(ParseAdjacents(positions), start, end);
        DistinctPermutation(found, r.value);
      }
    } else {
      forall p: Path
        ensures !IsRoute(positions, start, end, p)
      {
        FoundIffRoute(positions, start, end, p);
      }
    }
  }
}

=== FILE: pipeline.dfy ===
/**
 * The stages chained as internal/app/app.go runs them: build the graph,
 * find every route, choose a group of routes, render the move log. Any
 * failure aborts the run with its error.
 */
module Pipeline {
  import opened Wrappers
  import opened Entity
  import opened Paths
  import opened Groups
  import opened Schedule
  import opened Validate
  import opened Text

  /** Every member of a sub-multiset of the routes is a route. */
  lemma MembersOfRoutes(positions: seq<Position>, start: Room, end: Room, paths: seq<Path>, g: Group)
    requires forall p :: p in paths ==> IsRoute(positions, start, end, p)
    requires multiset(g) <= multiset(paths)
    ensures forall k :: 0 <= k < |g| ==> IsRoute(positions, start, end, g[k])
  {
    forall k | 0 <= k < |g|
      ensures IsRoute(positions, start, end, g[k])
    {
      assert g[k] in multiset(g);
      assert g[k] in multiset(paths);
    }
  }

  /**
   * FindAllPaths followed by MoveAntsToEnd: fails exactly when no route joins
   * start and end; otherwise a non-empty, interior-disjoint group of at most
   * `ants` routes.
   */
  function Plan(g: FarmGraph): (r: Result<Group, Error>)
    requires g.ants > 0 && g.start.Some? && g.end.Some?
    ensures r.Failure? <==> forall p: Path :: !IsRoute(g.positions, g.start.value, g.end.value, p)
    ensures r.Failure? ==> r.error == NoPaths
    ensures r.Success? ==>
      && ValidGroup(r.value)
      && 0 < |r.value| <= g.ants
      && InteriorDisjoint(r.value)
      && forall k :: 0 <= k < |r.value| ==> IsRoute(g.positions, g.start.value, g.end.value, r.value[k])
  {
    var start, end := g.start.value, g.end.value;
    FindAllPathsIsAllRoutes(g.positions, start, end);
    match FindAllPaths(g.positions, start, end)
    case Failure(e) => Failure(e)
    case Success(paths) =>
      assert forall k :: 0 <= k < |paths| ==> paths[k] in paths;
      var solution := MoveAntsToEnd(g.ants, paths);
      MembersOfRoutes(g.positions, start, end, paths, solution);
      Success(solution)
  }

  /**
   * The chosen group scores no worse than any group the search may record:
   * any non-empty interior-disjoint selection of at most `ants` routes led by
   * the direct tunnel when there is one.
   */
  lemma PlanIsBestCandidate(g: FarmGraph, c: Group)
    requires g.ants > 0 && g.start.Some? && g.end.Some?
    ensures FindAllPaths(g.positions, g.start.value, g.end.value).Success? ==>
      var paths := FindAllPaths(g.positions, g.start.value, g.end.value).value;
      IsCandidateGroup(g.ants, paths, c) ==>
        && Plan(g).Success? && ValidGroup(c)
        && Turns(g.ants, Plan(g).value) <= Turns(g.ants, c)
  {
    var start, end := g.start.value, g.end.value;
    FindAllPathsIsAllRoutes(g.positions, start, end);
    var found := FindAllPaths(g.positions, start, end);
    if found.Success? && IsCandidateGroup(g.ants, found.value, c) {
      var paths := found.value;
      assert forall k :: 0 <= k < |paths| ==> paths[k] in paths;
      assert Plan(g).value == MoveAntsToEnd(g.ants, paths);
      AllGroupsAreCandidates(g.ants, paths, c);
      assert c in AllGroups(g.ants, paths);
    }
  }

  /** The whole solver on a built graph: the move log, or the no-path error. */
  function Solve(g: FarmGraph): (r: Result<string, Error>)
    requires g.ants > 0 && g.start.Some? && g.end.Some?
    ensures r.Failure? <==> Plan(g).Failure?
    ensures r.Failure? ==> r.error == NoPaths
  {
    match Plan(g)
    case Failure(e) => Failure(e)
    case Success(solution) => Success(ResultOutput(solution, g.ants))
  }

  /** A route between two different rooms has at least two rooms. */
  lemma RouteHasTwoRooms(positions: seq<Position>, start: Room, end: Room, p: Path)
    requires IsRoute(positions, start, end, p) && start != end
    ensures |p| >= 2
  {
    assert p[0] == start && p[|p| - 1] == end;
  }

  /**
   * With distinct start and end rooms every route has at least two rooms, so
   * the printed log has one line for each turn 1 .. n, line t holding turn
   * t's moves, and no move falls outside those turns.
   */
  lemma SolvePrintsEveryTurn(g: FarmGraph)
    requires g.ants > 0 && g.start.Some? && g.end.Some? && g.start != g.end
    ensures Solve(g).Success? ==>
      var plans := Plans(Plan(g).value, g.ants, g.ants);
      var lines := Lines(FullLog(Plan(g).value, g.ants));
      && Solve(g).value == Join(lines, "\n")
      && (forall t :: 1 <= t <= |lines| ==>
            TurnTokens(plans, g.ants, t) != [] && lines[t - 1] == Join(TurnTokens(plans, g.ants, t), " "))
      && (forall t :: t < 1 || t > |lines| ==> TurnTokens(plans, g.ants, t) == [])
  {
    if Solve(g).Success? {
      var solution := Plan(g).value;
      forall k | 0 <= k < |solution|
        ensures |solution[k]| >= 2
      {
        RouteHasTwoRooms(g.positions, g.start.value, g.end.value, solution[k]);
      }
      ResultOutputPrintsEveryTurn(solution, g.ants);
    }
  }

  /** The program on the lines of a puzzle description: CreateGraph, then Solve. */
  function Run(lines: seq<string>): (r: Result<string, Error>)
    requires |lines| > 0
    ensures CreateGraph(lines).Failure? ==> r == Failure(CreateGraph(lines).error)
    ensures CreateGraph(lines).Success? ==>
      var g := CreateGraph(lines).value;
      && g.ants > 0 && g.start.Some? && g.end.Some?
      && (r.Failure? <==> forall p: Path :: !IsRoute(g.positions, g.start.value, g.end.value, p))
  {
    CreateGraphAccepted(lines);
    match CreateGraph(lines)
    case Failure(e) => Failure(e)
    case Success(g) => Solve(g)
  }
}

=== FILE: schedule.dfy ===
/**
 * Ant scheduling and move-log rendering (ResultOutput,
 * internal/core/core.go): every ant gets a path and a start turn, and each
 * of its steps becomes a token "L<ant>-<room>" on the line of its turn.
 */
module Schedule {
  import opened Wrappers
  import opened Entity
  import opened Text

  // ------------------------------------------------------------ arithmetic

  lemma {:induction false} MulMono(a: int, b: int, p: int)
    requires a <= b && p >= 0
    ensures a * p <= b * p
    decreases b - a
  {
    if a < b {
      MulMono(a + 1, b, p);
      assert (a + 1) * p == a * p + p;
    }
  }

  /** The ants `k * p` up to `k * p + p - 1` make up round `k`. */
  lemma DivIsRow(j: int, k: int, p: int)
    requires p > 0 && k * p <= j < k * p + p
    ensures j / p == k
  {
    var q := j / p;
    assert q * p <= j < q * p + p;
    assert (q + 1) * p == q * p + p;
    assert (k + 1) * p == k * p + p;
    if q < k {
      MulMono(q + 1, k, p);
      assert false;
    }
    if q > k {
      MulMono(k + 1, q, p);
      assert false;
    }
  }

  lemma RowBelow(j: int, p: int, k: int)
    requires p > 0 && 0 <= j && k <= j / p - 1
    ensures k * p <= j - p
  {
    var q := j / p;
    assert q * p <= j;
    MulMono(k, q - 1, p);
    assert (q - 1) * p == q * p - p;
  }

  /** The round of ant `ant` when rounds have `p` ants: ant / p by repeated subtraction. */
  function Round(ant: nat, p: nat): nat
    requires p > 0
    decreases ant
  {
    if ant < p then 0 else Round(ant - p, p) + 1
  }

  /** The place of ant `ant` within its round: ant mod p by repeated subtraction. */
  function Lane(ant: nat, p: nat): (c: nat)
    requires p > 0
    ensures c < p
    decreases ant
  {
    if ant < p then ant else Lane(ant - p, p)
  }

  /** Round and Lane are Go's ant / p and ant % p on non-negative ants. */
  lemma {:induction false} RoundIsDiv(ant: nat, p: nat)
    requires p > 0
    ensures Round(ant, p) == ant / p && Lane(ant, p) == ant % p
    decreases ant
  {
    if ant < p {
      DivIsRow(ant, 0, p);
    } else {
      RoundIsDiv(ant - p, p);
      var q, r := (ant - p) / p, (ant - p) % p;
      assert ant - p == q * p + r;
      assert (q + 1) * p == q * p + p;
      DivIsRow(ant, q + 1, p);
    }
  }

  lemma RoundOfRow(j: nat, k: nat, p: nat)
    requires p > 0 && k * p <= j < k * p + p
    ensures Round(j, p) == k
  {
    RoundIsDiv(j, p);
    DivIsRow(j, k, p);
  }

  lemma RoundBelow(j: nat, p: nat, k: int)
    requires p > 0 && k <= Round(j, p) - 1
    ensures k * p <= j - p
  {
    RoundIsDiv(j, p);
    RowBelow(j, p, k);
  }

  // ------------------------------------------------------------ assignment

  /** A path with the turn on which the ant takes its first step along it. */
  datatype Assignment = Assignment(path: Path, start: int)

  /** len(path) + startTurn, the quantity the reassignment compares. */
  function Cost(a: Assignment): int {
    |a.path| + a.start
  }

  /** Ant `ant` (0-based) before any reassignment: path `ant mod P`, turn `ant / P + 1`. */
  function Tentative(solution: Group, ant: nat): Assignment
    requires |solution| > 0
  {
    Assignment(solution[Lane(ant, |solution|)], Round(ant, |solution|) + 1)
  }

  /**
   * The reassignment loop over the ants `next` .. `ant + P - 1`, where `best`
   * is the ant whose tentative pair is currently kept: a later pair replaces
   * it only when strictly cheaper.
   */
  function Rescan(solution: Group, ant: nat, next: nat, best: nat): (j: nat)
    requires |solution| > 0
    requires ant <= best < next <= ant + |solution|
    ensures ant <= j < ant + |solution|
    ensures Cost(Tentative(solution, j)) <= Cost(Tentative(solution, best))
    ensures j != best ==> Cost(Tentative(solution, j)) < Cost(Tentative(solution, best))
    decreases ant + |solution| - next
  {
    if next == ant + |solution| then best
    else if Cost(Tentative(solution, next)) < Cost(Tentative(solution, best)) then
      Rescan(solution, ant, next + 1, next)
    else
      Rescan(solution, ant, next + 1, best)
  }

  /**
   * Started from a running minimum of the window up to `next`, the loop ends
   * on the first pair of least cost in the whole window.
   */
  lemma {:induction false} RescanIsFirstCheapest(solution: Group, ant: nat, next: nat, best: nat)
    requires |solution| > 0
    requires ant <= best < next <= ant + |solution|
    requires forall k :: ant <= k < next ==>
      Cost(Tentative(solution, best)) <= Cost(Tentative(solution, k))
    requires forall k :: ant <= k < best ==>
      Cost(Tentative(solution, k)) > Cost(Tentative(solution, best))
    ensures var j := Rescan(solution, ant, next, best);
      && (forall k :: ant <= k < ant + |solution| ==>
            Cost(Tentative(solution, j)) <= Cost(Tentative(solution, k)))
      && (forall k :: ant <= k < j ==>
            Cost(Tentative(solution, k)) > Cost(Tentative(solution, j)))
    decreases ant + |solution| - next
  {
    if next < ant + |solution| {
      if Cost(Tentative(solution, next)) < Cost(Tentative(solution, best)) {
        RescanIsFirstCheapest(solution, ant, next + 1, next);
      } else {
        RescanIsFirstCheapest(solution, ant, next + 1, best);
      }
    }
  }

  /** One of the last P ants, which may take a later ant's pair. */
  predicate IsLate(solution: Group, ants: int, ant: nat) {
    ants - |solution| < ant
  }

  /**
   * The ant whose tentative (path, turn) pair ant `ant` ends up with. Early
   * ants keep their own; a pair a late ant takes is strictly cheaper than
   * its own.
   */
  function Chosen(solution: Group, ants: int, ant: nat): (j: nat)
    requires |solution| > 0
    ensures ant <= j < ant + |solution|
    ensures !IsLate(solution, ants, ant) ==> j == ant
    ensures j != ant ==> Cost(Tentative(solution, j)) < Cost(Tentative(solution, ant))
  {
    if IsLate(solution, ants, ant) then Rescan(solution, ant, ant + 1, ant) else ant
  }

  /** A late ant takes the first pair of least cost among its own and the next P - 1 ants'. */
  lemma ChosenIsFirstCheapest(solution: Group, ants: int, ant: nat)
    requires |solution| > 0 && IsLate(solution, ants, ant)
    ensures var j := Chosen(solution, ants, ant);
      && (forall k :: ant <= k < ant + |solution| ==>
            Cost(Tentative(solution, j)) <= Cost(Tentative(solution, k)))
      && (forall k :: ant <= k < j ==>
            Cost(Tentative(solution, k)) > Cost(Tentative(solution, j)))
  {
    RescanIsFirstCheapest(solution, ant, ant + 1, ant);
  }

  /** The path and start turn ant `ant` finally uses. */
  function Assign(solution: Group, ants: int, ant: nat): (a: Assignment)
    requires |solution| > 0
    ensures a.path in solution && a.start >= 1
    ensures Cost(a) <= Cost(Tentative(solution, ant))
    ensures !IsLate(solution, ants, ant) ==> a == Tentative(solution, ant)
  {
    Tentative(solution, Chosen(solution, ants, ant))
  }

  /** The first ant of every round starts on that round's turn, even when it is late. */
  lemma RoundLeaderStart(solution: Group, ants: int, k: nat)
    requires |solution| > 0
    ensures Assign(solution, ants, k * |solution|).start == k + 1
  {
    var p := |solution|;
    var j := Chosen(solution, ants, k * p);
    RoundOfRow(j, k, p);
  }

  lemma StartsAtTurnOne(solution: Group, ants: int, ant: nat)
    requires |solution| > 0
    ensures Assign(solution, ants, ant).start >= 1
  {
  }

  // ---------------------------------------------------------------- tokens

  /** "L" + strconv.Itoa(ant+1) + "-" + room.Name. */
  function Token(ant: nat, room: Room): string {
    "L" + NatToString(ant + 1) + "-" + room.name
  }

  /** Reads a token back: the 0-based ant and the room name. */
  function ParseToken(token: string): Option<(nat, string)> {
    if |token| == 0 || token[0] != 'L' then None
    else
      var rest := token[1..];
      var i := IndexOf(rest, '-');
      if i == |rest| || i == 0 || !AllDigits(rest[..i]) || DigitsValue(rest[..i]) == 0 then None
      else Some((DigitsValue(rest[..i]) - 1, rest[i + 1..]))
  }

  /** Every token names its ant (1-based in the text) and its room unambiguously. */
  lemma ParseTokenOfToken(ant: nat, room: Room)
    ensures ParseToken(Token(ant, room)) == Some((ant, room.name))
  {
    var digits := NatToString(ant + 1);
    var token := Token(ant, room);
    var rest := digits + "-" + room.name;
    assert token[1..] == rest;
    assert '-' !in digits by {
      assert forall i :: 0 <= i < |digits| ==> IsDigit(digits[i]);
    }
    IndexOfFirst(digits, '-', "-" + room.name);
    assert rest == digits + ("-" + room.name);
    assert rest[..|digits|] == digits;
    assert rest[|digits| + 1..] == room.name;
    DigitsOfNat(ant + 1);
  }

  // ------------------------------------------------------------------- log

  /** The move log under construction: turn number to that turn's tokens. */
  type Log = map<int, seq<string>>

  /** Go's read of a missing turn: the empty (nil) list. */
  function Get(log: Log, t: int): seq<string> {
    if t in log then log[t] else []
  }

  /**
   * The inner loop of ResultOutput: ant `ant` enters `rooms[d]` on turn
   * `turn + d`, its token appended to that turn's list.
   */
  function AddSteps(log: Log, ant: nat, rooms: seq<Room>, turn: int): Log
    decreases |rooms|
  {
    if |rooms| == 0 then log
    else AddSteps(log[turn := Get(log, turn) + [Token(ant, rooms[0])]], ant, rooms[1..], turn + 1)
  }

  /** The token, if any, that AddSteps adds to turn `t`. */
  function StepToken(ant: nat, rooms: seq<Room>, turn: int, t: int): seq<string> {
    if turn <= t < turn + |rooms| then [Token(ant, rooms[t - turn])] else []
  }

  /** AddSteps appends to each turn's list exactly the token of that turn, nothing else. */
  lemma {:induction false} AddStepsAt(log: Log, ant: nat, rooms: seq<Room>, turn: int, t: int)
    ensures Get(AddSteps(log, ant, rooms, turn), t) == Get(log, t) + StepToken(ant, rooms, turn, t)
    ensures t in AddSteps(log, ant, rooms, turn) <==> t in log || turn <= t < turn + |rooms|
    decreases |rooms|
  {
    if |rooms| > 0 {
      var next := log[turn := Get(log, turn) + [Token(ant, rooms[0])]];
      AddStepsAt(next, ant, rooms[1..], turn + 1, t);
      if turn + 1 <= t < turn + |rooms| {
        assert rooms[1..][t - (turn + 1)] == rooms[t - turn];
      }
    }
  }

  /** The (path, start turn) pair of each of the first `n` ants, in ant order. */
  function Plans(solution: Group, ants: int, n: nat): (r: seq<Assignment>)
    requires |solution| > 0
    ensures |r| == n
    ensures ValidGroup(solution) ==> Walkable(r)
    decreases n
  {
    if n == 0 then []
    else Plans(solution, ants, n - 1) + [Assign(solution, ants, n - 1)]
  }

  /** Pair `i` of the list is the assignment of ant `i`. */
  lemma {:induction false} PlansAt(solution: Group, ants: int, n: nat, i: nat)
    requires |solution| > 0 && i < n
    ensures Plans(solution, ants, n)[i] == Assign(solution, ants, i)
    decreases n
  {
    if i < n - 1 {
      PlansAt(solution, ants, n - 1, i);
    }
  }

  /** Every path has a first room, so each walk path[1:] is defined. */
  predicate Walkable(plans: seq<Assignment>) {
    forall k :: 0 <= k < |plans| ==> |plans[k].path| > 0
  }

  /** The outer loop of ResultOutput over the first `n` ants' pairs. */
  function BuildLog(plans: seq<Assignment>, n: nat): Log
    requires Walkable(plans) && n <= |plans|
    decreases n
  {
    if n == 0 then map[]
    else AddSteps(BuildLog(plans, n - 1), n - 1, plans[n - 1].path[1..], plans[n - 1].start)
  }

  /** Ant `ant` takes a step on turn `t`. */
  predicate Active(plans: seq<Assignment>, ant: nat, t: int) {
    ant < |plans| && plans[ant].start <= t < plans[ant].start + |plans[ant].path| - 1
  }

  /** The room ant `ant` enters on turn `t`. */
  function RoomAt(plans: seq<Assignment>, ant: nat, t: int): Room
    requires Active(plans, ant, t)
  {
    plans[ant].path[t - plans[ant].start + 1]
  }

  /** The ants among the first `n` that move on turn `t`, in ant order. */
  function TurnAnts(plans: seq<Assignment>, n: nat, t: int): seq<nat>
    requires n <= |plans|
    decreases n
  {
    if n == 0 then []
    else TurnAnts(plans, n - 1, t) + (if Active(plans, n - 1, t) then [n - 1] else [])
  }

  /** The tokens of turn `t`, ant by ant: the reference reading of the log. */
  function TurnTokens(plans: seq<Assignment>, n: nat, t: int): seq<string>
    requires n <= |plans|
    decreases n
  {
    if n == 0 then []
    else
      TurnTokens(plans, n - 1, t) +
      (if Active(plans, n - 1, t) then [Token(n - 1, RoomAt(plans, n - 1, t))] else [])
  }

  /** The log holds, for every turn, exactly that turn's tokens in ant order. */
  lemma {:induction false} LogIsTurnTokens(plans: seq<Assignment>, n: nat, t: int)
    requires Walkable(plans) && n <= |plans|
    ensures Get(BuildLog(plans, n), t) == TurnTokens(plans, n, t)
    ensures t in BuildLog(plans, n) <==> TurnTokens(plans, n, t) != []
    decreases n
  {
    if n > 0 {
      LogIsTurnTokens(plans, n - 1, t);
      var a := plans[n - 1];
      AddStepsAt(BuildLog(plans, n - 1), n - 1, a.path[1..], a.start, t);
      StepTokenIsTurnStep(plans, n - 1, t);
    }
  }

  /** The token the ant's walk adds to turn `t` is its move of that turn, if any. */
  lemma StepTokenIsTurnStep(plans: seq<Assignment>, i: nat, t: int)
    requires Walkable(plans) && i < |plans|
    ensures var a := plans[i];
      && (a.start <= t < a.start + |a.path[1..]| <==> Active(plans, i, t))
      && StepToken(i, a.path[1..], a.start, t) ==
         (if Active(plans, i, t) then [Token(i, RoomAt(plans, i, t))] else [])
  {
    var a := plans[i];
    if a.start <= t < a.start + |a.path| - 1 {
      assert a.path[1..][t - a.start] == a.path[t - a.start + 1];
    }
  }

  predicate IncreasingBelow(s: seq<nat>, n: nat) {
    && (forall a :: 0 <= a < |s| ==> s[a] < n)
    && (forall a, b :: 0 <= a < b < |s| ==> s[a] < s[b])
  }

  lemma AppendLargest(s: seq<nat>, m: nat, add: bool)
    requires IncreasingBelow(s, m)
    ensures IncreasingBelow(s + (if add then [m] else []), m + 1)
  {
  }

  lemma AppendedMembers(s: seq<nat>, m: nat, add: bool)
    requires IncreasingBelow(s, m)
    ensures forall i: nat :: i < m ==> (i in s + (if add then [m] else []) <==> i in s)
    ensures m in s + (if add then [m] else []) <==> add
  {
  }

  /** The ants moving on turn `t` are listed in increasing order, all below `n`. */
  lemma {:induction false} TurnAntsIncrease(plans: seq<Assignment>, n: nat, t: int)
    requires n <= |plans|
    ensures IncreasingBelow(TurnAnts(plans, n, t), n)
    decreases n
  {
    if n > 0 {
      TurnAntsIncrease(plans, n - 1, t);
      AppendLargest(TurnAnts(plans, n - 1, t), n - 1, Active(plans, n - 1, t));
    }
  }

  /** The ants listed for turn `t` are exactly the ants below `n` that move on it. */
  lemma TurnAntsAreActive(plans: seq<Assignment>, n: nat, t: int)
    requires n <= |plans|
    ensures var moving := TurnAnts(plans, n, t);
      && (forall i: nat :: i < n ==> (i in moving <==> Active(plans, i, t)))
      && (forall a :: 0 <= a < |moving| ==> Active(plans, moving[a], t))
  {
    var moving := TurnAnts(plans, n, t);
    TurnAntsMembership(plans, n, t);
    TurnAntsIncrease(plans, n, t);
    forall a | 0 <= a < |moving|
      ensures Active(plans, moving[a], t)
    {
      assert moving[a] in moving && moving[a] < n;
    }
  }

  lemma {:induction false} TurnAntsMembership(plans: seq<Assignment>, n: nat, t: int)
    requires n <= |plans|
    ensures forall i: nat :: i < n ==> (i in TurnAnts(plans, n, t) <==> Active(plans, i, t))
    decreases n
  {
    if n > 0 {
      var before := TurnAnts(plans, n - 1, t);
      TurnAntsMembership(plans, n - 1, t);
      TurnAntsIncrease(plans, n - 1, t);
      AppendedMembers(before, n - 1, Active(plans, n - 1, t));
    }
  }

  /** Token `a` of turn `t` is the step of the `a`-th moving ant. */
  lemma {:induction false} TurnTokensOfTurnAnts(plans: seq<Assignment>, n: nat, t: int)
    requires n <= |plans|
    ensures var moving := TurnAnts(plans, n, t);
      var tokens := TurnTokens(plans, n, t);
      && |tokens| == |moving|
      && (forall a :: 0 <= a < |moving| ==>
            Active(plans, moving[a], t) &&
            tokens[a] == Token(moving[a], RoomAt(plans, moving[a], t)))
    decreases n
  {
    if n > 0 {
      TurnTokensOfTurnAnts(plans, n - 1, t);
      var moving := TurnAnts(plans, n - 1, t);
      var tokens := TurnTokens(plans, n - 1, t);
      if Active(plans, n - 1, t) {
        var step := Token(n - 1, RoomAt(plans, n - 1, t));
        assert TurnAnts(plans, n, t) == moving + [n - 1];
        assert TurnTokens(plans, n, t) == tokens + [step];
        forall a | 0 <= a < |moving| + 1
          ensures (moving + [n - 1])[a] == if a < |moving| then moving[a] else n - 1
          ensures (tokens + [step])[a] == if a < |moving| then tokens[a] else step
        {
        }
      } else {
        assert TurnAnts(plans, n, t) == moving;
        assert TurnTokens(plans, n, t) == tokens;
      }
    }
  }

  /**
   * Turn `t` lists one token per moving ant, in increasing ant order, and
   * each token decodes to its ant and the room that ant enters.
   */
  lemma TurnTokensInAntOrder(plans: seq<Assignment>, n: nat, t: int)
    requires n <= |plans|
    ensures var moving := TurnAnts(plans, n, t);
      var tokens := TurnTokens(plans, n, t);
      && |tokens| == |moving|
      && (forall a, b :: 0 <= a < b < |moving| ==> moving[a] < moving[b])
      && (forall i: nat :: i < n ==> (i in moving <==> Active(plans, i, t)))
      && (forall a :: 0 <= a < |moving| ==> moving[a] < n && Active(plans, moving[a], t))
      && (forall a :: 0 <= a < |moving| ==>
            ParseToken(tokens[a]) == Some((moving[a], RoomAt(plans, moving[a], t).name)))
  {
    var moving := TurnAnts(plans, n, t);
    TurnAntsIncrease(plans, n, t);
    TurnAntsAreActive(plans, n, t);
    TurnTokensOfTurnAnts(plans, n, t);
    forall a | 0 <= a < |moving|
      ensures ParseToken(TurnTokens(plans, n, t)[a]) ==
        Some((moving[a], RoomAt(plans, moving[a], t).name))
    {
      ParseTokenOfToken(moving[a], RoomAt(plans, moving[a], t));
    }
  }

  /**
   * Ant `i` moves on the consecutive turns `start` .. `start + len(path) - 2`:
   * on each of them exactly one token of that turn names it, with the room
   * it enters, and on every other turn none does.
   */
  lemma AntTokensPerTurn(plans: seq<Assignment>, n: nat, i: nat, t: int)
    requires n <= |plans| && i < n
    ensures var a := plans[i];
      var tokens := TurnTokens(plans, n, t);
      && (a.start <= t < a.start + |a.path| - 1 ==>
            exists k :: 0 <= k < |tokens| && ParseToken(tokens[k]) == Some((i, a.path[t - a.start + 1].name)))
      && (forall k :: 0 <= k < |tokens| && ParseToken(tokens[k]).Some? && ParseToken(tokens[k]).value.0 == i ==>
            a.start <= t < a.start + |a.path| - 1)
      && (forall k, l :: 0 <= k < l < |tokens| && ParseToken(tokens[k]).Some? && ParseToken(tokens[l]).Some? ==>
            ParseToken(tokens[k]).value.0 != ParseToken(tokens[l]).value.0)
  {
    var moving := TurnAnts(plans, n, t);
    TurnTokensInAntOrder(plans, n, t);
    var a := plans[i];
    if a.start <= t < a.start + |a.path| - 1 {
      assert Active(plans, i, t);
      var k :| 0 <= k < |moving| && moving[k] == i;
      assert ParseToken(TurnTokens(plans, n, t)[k]) == Some((i, a.path[t - a.start + 1].name));
    }
  }

  /** ResultOutput's loop runs once per ant; a count below one runs it not at all. */
  function AntTotal(ants: int): nat {
    if ants > 0 then ants else 0
  }

  /** The log ResultOutput builds: the walks of all its ants. */
  function FullLog(solution: Group, ants: int): Log
    requires ValidGroup(solution)
  {
    BuildLog(Plans(solution, ants, AntTotal(ants)), AntTotal(ants))
  }

  /** One line per turn 1 .. len(log): the turn's tokens joined by single spaces. */
  function Lines(log: Log): seq<string> {
    seq(|log|, i requires 0 <= i < |log| => Join(Get(log, i + 1), " "))
  }

  /** ResultOutput: the move log, one line per turn, lines joined by newlines. */
  function ResultOutput(solution: Group, ants: int): (out: string)
    requires ValidGroup(solution)
    ensures ants <= 0 ==> out == ""
  {
    Join(Lines(FullLog(solution, ants)), "\n")
  }

  /** A direct tunnel a-b and a detour a-c-d-b. */
  function Detour(): Group {
    [[Room("a", 0, 0), Room("b", 3, 0)], [Room("a", 0, 0), Room("c", 1, 1), Room("d", 2, 1), Room("b", 3, 0)]]
  }

  /**
   * With two ants the second would take the detour on turn 1 (cost 4 + 1)
   * but takes the direct tunnel on turn 2 instead (cost 2 + 2).
   */
  lemma LateAntTakesDirectTunnel()
    ensures Assign(Detour(), 2, 0) == Assignment(Detour()[0], 1)
    ensures Assign(Detour(), 2, 1) == Assignment(Detour()[0], 2)
  {
    var sol := Detour();
    assert Tentative(sol, 1) == Assignment(sol[1], 1);
    assert Tentative(sol, 2) == Assignment(sol[0], 2);
    assert Rescan(sol, 1, 3, 2) == 2;
    assert Rescan(sol, 1, 2, 1) == 2;
  }

  /** So both ants walk a-b, one turn apart. */
  lemma DetourLog()
    ensures FullLog(Detour(), 2) == map[1 := ["L1-b"], 2 := ["L2-b"]]
  {
    var sol := Detour();
    var b := Room("b", 3, 0);
    LateAntTakesDirectTunnel();
    var plans := Plans(sol, 2, 2);
    PlansAt(sol, 2, 2, 0);
    PlansAt(sol, 2, 2, 1);
    assert plans[0] == Assignment(sol[0], 1) && plans[1] == Assignment(sol[0], 2);
    assert sol[0][1..] == [b] && [b][1..] == [];
    assert NatToString(1) == "1" && NatToString(2) == "2";
    assert Token(0, b) == "L1-b" && Token(1, b) == "L2-b";
    var empty: Log := map[];
    var first: Log := map[1 := ["L1-b"]];
    var both: Log := map[1 := ["L1-b"], 2 := ["L2-b"]];
    assert BuildLog(plans, 1) == AddSteps(empty, 0, [b], 1);
    assert Get(empty, 1) + [Token(0, b)] == ["L1-b"];
    assert AddSteps(empty, 0, [b], 1) == AddSteps(first, 0, [], 2);
    assert BuildLog(plans, 2) == AddSteps(first, 1, [b], 2);
    assert Get(first, 2) + [Token(1, b)] == ["L2-b"];
    assert AddSteps(first, 1, [b], 2) == AddSteps(both, 1, [], 3);
  }

  lemma DetourOutput()
    ensures ResultOutput(Detour(), 2) == "L1-b\nL2-b"
  {
    var both: Log := map[1 := ["L1-b"], 2 := ["L2-b"]];
    DetourLog();
    assert |both| == 2;
    assert Get(both, 1) == ["L1-b"] && Get(both, 2) == ["L2-b"];
    assert Join(["L1-b"], " ") == "L1-b" && Join(["L2-b"], " ") == "L2-b";
    var lines := Lines(both);
    assert lines[0] == "L1-b" && lines[1] == "L2-b";
    assert lines == ["L1-b", "L2-b"];
    assert Join(lines, "\n") == "L1-b" + "\n" + Join(["L2-b"], "\n");
  }

  // --------------------------------------------------------- no lost turns

  /** The turns 1 .. n. */
  function Range(n: int): set<int>
    decreases if n > 0 then n else 0
  {
    if n <= 0 then {} else Range(n - 1) + {n}
  }

  lemma {:induction false} InRange(n: int, t: int)
    ensures t in Range(n) <==> 1 <= t <= n
    decreases if n > 0 then n else 0
  {
    if n > 0 {
      InRange(n - 1, t);
    }
  }

  lemma {:induction false} RangeSize(n: nat)
    ensures |Range(n)| == n
    decreases n
  {
    if n > 0 {
      RangeSize(n - 1);
      InRange(n - 1, n);
    }
  }

  lemma SubsetSize(a: set<int>, b: set<int>)
    requires a <= b
    ensures |a| <= |b|
    ensures |a| == |b| ==> a == b
  {
    assert b == a + (b - a);
    assert |b| == |a| + |b - a|;
    if |a| == |b| {
      assert |b - a| == 0;
      assert b - a == {};
    }
  }

  /** A set of turns from 1 on with no gap is the range 1 .. its size. */
  lemma GapFreeIsRange(keys: set<int>)
    requires forall t :: t in keys ==> 1 <= t
    requires forall t :: t in keys ==> Range(t) <= keys
    ensures keys == Range(|keys|)
  {
    forall t | t in keys
      ensures t <= |keys|
    {
      RangeSize(t);
      SubsetSize(Range(t), keys);
    }
    forall t | t in keys
      ensures t in Range(|keys|)
    {
      InRange(|keys|, t);
    }
    RangeSize(|keys|);
    SubsetSize(keys, Range(|keys|));
  }

  /** Every assigned path is one of the solution's paths. */
  lemma AssignedPathIsLong(solution: Group, ants: int, i: nat)
    requires |solution| > 0
    requires forall k :: 0 <= k < |solution| ==> |solution[k]| >= 2
    ensures |Assign(solution, ants, i).path| >= 2
  {
    var j := Chosen(solution, ants, i);
    assert Assign(solution, ants, i).path == solution[Lane(j, |solution|)];
  }

  /** If some ant moves on turn `t`, some ant moves on every turn from 1 to `t`. */
  lemma TurnsWithoutGap(solution: Group, ants: int, t: int, u: int, i: nat)
    requires |solution| > 0
    requires forall k :: 0 <= k < |solution| ==> |solution[k]| >= 2
    requires i < AntTotal(ants) && Active(Plans(solution, ants, AntTotal(ants)), i, t)
    requires 1 <= u <= t
    ensures exists v: nat :: v < AntTotal(ants) && Active(Plans(solution, ants, AntTotal(ants)), v, u)
  {
    var n := AntTotal(ants);
    var plans := Plans(solution, ants, n);
    PlansAt(solution, ants, n, i);
    var a := Assign(solution, ants, i);
    if a.start <= u {
      assert Active(plans, i, u);
    } else {
      var p := |solution|;
      var j := Chosen(solution, ants, i);
      assert a.start == Round(j, p) + 1;
      var k: nat := u - 1;
      RoundBelow(j, p, k);
      MulMono(0, k, p);
      var leader: nat := k * p;
      assert leader < n;
      RoundLeaderStart(solution, ants, k);
      AssignedPathIsLong(solution, ants, leader);
      PlansAt(solution, ants, n, leader);
      assert Active(plans, leader, u);
    }
  }

  /** A turn on which some ant moves is logged. */
  lemma ActiveIsLogged(plans: seq<Assignment>, n: nat, t: int, i: nat)
    requires Walkable(plans) && n <= |plans|
    requires i < n && Active(plans, i, t)
    ensures t in BuildLog(plans, n)
  {
    TurnTokensInAntOrder(plans, n, t);
    LogIsTurnTokens(plans, n, t);
  }

  /** A logged turn has an ant that moves on it. */
  lemma LoggedIsActive(plans: seq<Assignment>, n: nat, t: int) returns (i: nat)
    requires Walkable(plans) && n <= |plans|
    requires t in BuildLog(plans, n)
    ensures i < n && Active(plans, i, t)
  {
    TurnTokensInAntOrder(plans, n, t);
    LogIsTurnTokens(plans, n, t);
    i := TurnAnts(plans, n, t)[0];
  }

  lemma EarlierTurnLogged(solution: Group, ants: int, t: int, u: int, i: nat)
    requires |solution| > 0
    requires forall k :: 0 <= k < |solution| ==> |solution[k]| >= 2
    requires i < AntTotal(ants) && Active(Plans(solution, ants, AntTotal(ants)), i, t)
    requires 1 <= u <= t
    ensures ValidGroup(solution)
    ensures u in FullLog(solution, ants)
  {
    TurnsWithoutGap(solution, ants, t, u, i);
    var n := AntTotal(ants);
    var plans := Plans(solution, ants, n);
    var v: nat :| v < n && Active(plans, v, u);
    ActiveIsLogged(plans, n, u, v);
  }

  lemma LoggedTurnHasPredecessors(solution: Group, ants: int, t: int)
    requires |solution| > 0
    requires forall k :: 0 <= k < |solution| ==> |solution[k]| >= 2
    requires ValidGroup(solution) && t in FullLog(solution, ants)
    ensures 1 <= t && Range(t) <= FullLog(solution, ants).Keys
  {
    var n := AntTotal(ants);
    var plans := Plans(solution, ants, n);
    var keys := FullLog(solution, ants).Keys;
    var i := LoggedIsActive(plans, n, t);
    PlansAt(solution, ants, n, i);
    StartsAtTurnOne(solution, ants, i);
    forall u | u in Range(t)
      ensures u in keys
    {
      InRange(t, u);
      EarlierTurnLogged(solution, ants, t, u, i);
    }
  }

  /** The logged turns are 1 .. len(log), with no gap. */
  lemma LoggedTurnsAreRange(solution: Group, ants: int)
    requires |solution| > 0
    requires forall k :: 0 <= k < |solution| ==> |solution[k]| >= 2
    ensures ValidGroup(solution)
    ensures var log := FullLog(solution, ants);
      log.Keys == Range(|log.Keys|)
  {
    var keys := FullLog(solution, ants).Keys;
    forall t | t in keys
      ensures 1 <= t && Range(t) <= keys
    {
      LoggedTurnHasPredecessors(solution, ants, t);
    }
    GapFreeIsRange(keys);
  }

  /**
   * When every path has at least two rooms, ResultOutput's loop over turns
   * 1 .. len(log) prints every token: line t is turn t's tokens, and no
   * other turn has any.
   */
  lemma ResultOutputPrintsEveryTurn(solution: Group, ants: int)
    requires |solution| > 0
    requires forall k :: 0 <= k < |solution| ==> |solution[k]| >= 2
    ensures ValidGroup(solution)
    ensures var n := AntTotal(ants);
      var plans := Plans(solution, ants, n);
      var lines := Lines(FullLog(solution, ants));
      && ResultOutput(solution, ants) == Join(lines, "\n")
      && (forall t :: 1 <= t <= |lines| ==>
            TurnTokens(plans, n, t) != [] && lines[t - 1] == Join(TurnTokens(plans, n, t), " "))
      && (forall t :: t < 1 || t > |lines| ==> TurnTokens(plans, n, t) == [])
  {
    var n := AntTotal(ants);
    var plans := Plans(solution, ants, n);
    var log := FullLog(solution, ants);
    LoggedTurnsAreRange(solution, ants);
    assert |log| == |log.Keys|;
    var lines := Lines(log);
    forall t
      ensures 1 <= t <= |lines| ==>
        TurnTokens(plans, n, t) != [] && lines[t - 1] == Join(TurnTokens(plans, n, t), " ")
      ensures t < 1 || t > |lines| ==> TurnTokens(plans, n, t) == []
    {
      LogIsTurnTokens(plans, n, t);
      InRange(|log.Keys|, t);
    }
  }
}

=== FILE: text.dfy ===
/**
 * The string and number conversions the solver borrows from Go's standard
 * library: strings.Fields, strings.Split, strings.Join, strings.HasPrefix,
 * strings.TrimPrefix, strconv.Atoi and strconv.Itoa. Each comes with the
 * round trip that pins its behaviour down.
 */
module Text {
  import opened Wrappers

  /** Go's unicode.IsSpace: the separators strings.Fields splits on. */
  predicate IsSpace(c: char) {
    var n := c as int;
    || (9 <= n <= 13) || n == 32 || n == 0x85 || n == 0xA0 || n == 0x1680
    || (0x2000 <= n <= 0x200A) || n == 0x2028 || n == 0x2029 || n == 0x202F
    || n == 0x205F || n == 0x3000
  }

  predicate NoSpace(s: string) {
    forall i :: 0 <= i < |s| ==> !IsSpace(s[i])
  }

  predicate HasPrefix(s: string, prefix: string) {
    |prefix| <= |s| && s[..|prefix|] == prefix
  }

  /** strings.TrimPrefix: drops `prefix` when `s` starts with it. */
  function TrimPrefix(s: string, prefix: string): (r: string)
    ensures HasPrefix(s, prefix) ==> prefix + r == s
    ensures !HasPrefix(s, prefix) ==> r == s
  {
    if HasPrefix(s, prefix) then s[|prefix|..] else s
  }

  /** strings.Join: the parts with `sep` between neighbours. */
  function Join(parts: seq<string>, sep: string): string
    decreases |parts|
  {
    if |parts| == 0 then ""
    else if |parts| == 1 then parts[0]
    else parts[0] + sep + Join(parts[1..], sep)
  }

  // ---------------------------------------------------------------- Fields

  /** Length of the longest space-free prefix of `s`. */
  function WordLength(s: string): (n: nat)
    ensures n <= |s|
    ensures NoSpace(s[..n])
    ensures n < |s| ==> IsSpace(s[n])
  {
    if |s| == 0 || IsSpace(s[0]) then 0 else 1 + WordLength(s[1..])
  }

  /** strings.Fields: the maximal runs of non-space characters, in order. */
  function Fields(s: string): (fields: seq<string>)
    ensures forall i :: 0 <= i < |fields| ==> |fields[i]| > 0 && NoSpace(fields[i])
    decreases |s|
  {
    if |s| == 0 then []
    else if IsSpace(s[0]) then Fields(s[1..])
    else
      var n := WordLength(s);
      [s[..n]] + Fields(s[n..])
  }

  lemma {:induction false} WordLengthOfWord(w: string, rest: string)
    requires NoSpace(w)
    requires |rest| == 0 || IsSpace(rest[0])
    ensures WordLength(w + rest) == |w|
    decreases |w|
  {
    if |w| > 0 {
      assert (w + rest)[1..] == w[1..] + rest;
      WordLengthOfWord(w[1..], rest);
    } else {
      assert w + rest == rest;
    }
  }

  /** Splitting single-space-joined words on white space gives the words back. */
  lemma {:induction false} FieldsOfJoin(words: seq<string>)
    requires forall i :: 0 <= i < |words| ==> |words[i]| > 0 && NoSpace(words[i])
    ensures Fields(Join(words, " ")) == words
    decreases |words|
  {
    if |words| == 1 {
      var w := words[0];
      WordLengthOfWord(w, "");
      assert w + "" == w;
      assert w[|w|..] == "";
    } else if |words| > 1 {
      var w := words[0];
      var rest := Join(words[1..], " ");
      var s := w + " " + rest;
      assert Join(words, " ") == s;
      WordLengthOfWord(w, " " + rest);
      assert s == w + (" " + rest);
      assert s[..|w|] == w;
      assert s[|w|..] == " " + rest;
      assert (" " + rest)[1..] == rest;
      assert Fields(" " + rest) == Fields(rest);
      FieldsOfJoin(words[1..]);
      assert Fields(s) == [w] + Fields(rest);
      assert words == [w] + words[1..];
    }
  }

  /** Every character of `s` is white space (the empty string included). */
  predicate Blank(s: string) {
    forall i :: 0 <= i < |s| ==> IsSpace(s[i])
  }

  /**
   * The words with arbitrary white space around them: `seps[0] + words[0] +
   * seps[1] + ... + words[n - 1] + seps[n]`.
   */
  function Spaced(words: seq<string>, seps: seq<string>): string
    requires |seps| == |words| + 1
    decreases |words|
  {
    if |words| == 0 then seps[0] else seps[0] + words[0] + Spaced(words[1..], seps[1..])
  }

  /** Leading white space contributes no field. */
  lemma {:induction false} FieldsSkipBlank(b: string, rest: string)
    requires Blank(b)
    ensures Fields(b + rest) == Fields(rest)
    decreases |b|
  {
    if |b| > 0 {
      assert (b + rest)[1..] == b[1..] + rest;
      FieldsSkipBlank(b[1..], rest);
    } else {
      assert b + rest == rest;
    }
  }

  /** A word followed by white space or the end of the string is one field. */
  lemma FieldsOfWord(w: string, rest: string)
    requires |w| > 0 && NoSpace(w)
    requires |rest| == 0 || IsSpace(rest[0])
    ensures Fields(w + rest) == [w] + Fields(rest)
  {
    WordLengthOfWord(w, rest);
    assert (w + rest)[..|w|] == w;
    assert (w + rest)[|w|..] == rest;
  }

  /** The spaced text starts with white space, or is empty, unless it starts with a word. */
  lemma SpacedStart(words: seq<string>, seps: seq<string>)
    requires |seps| == |words| + 1
    requires forall k :: 0 <= k < |seps| ==> Blank(seps[k])
    requires |words| > 0 ==> |seps[0]| > 0
    ensures var s := Spaced(words, seps); |s| == 0 || IsSpace(s[0])
  {
    if |words| > 0 {
      assert Spaced(words, seps)[0] == seps[0][0];
    }
  }

  /**
   * strings.Fields finds the words back whatever white space separates them:
   * any blank run before, between (at least one character) and after
   * non-empty blank-free words.
   */
  lemma {:induction false} FieldsOfSpaced(words: seq<string>, seps: seq<string>)
    requires |seps| == |words| + 1
    requires forall k :: 0 <= k < |words| ==> |words[k]| > 0 && NoSpace(words[k])
    requires forall k :: 0 <= k < |seps| ==> Blank(seps[k])
    requires forall k :: 0 < k < |words| ==> |seps[k]| > 0
    ensures Fields(Spaced(words, seps)) == words
    decreases |words|
  {
    if |words| == 0 {
      FieldsSkipBlank(seps[0], "");
      assert seps[0] + "" == seps[0];
    } else {
      var tail := Spaced(words[1..], seps[1..]);
      assert Spaced(words, seps) == seps[0] + (words[0] + tail);
      FieldsSkipBlank(seps[0], words[0] + tail);
      SpacedStart(words[1..], seps[1..]);
      FieldsOfWord(words[0], tail);
      FieldsOfSpaced(words[1..], seps[1..]);
      assert words == [words[0]] + words[1..];
    }
  }

  // ----------------------------------------------------------------- Split

  /** Index of the first `c` in `s`, or |s| when there is none. */
  function IndexOf(s: string, c: char): (i: nat)
    ensures i <= |s|
    ensures c !in s[..i]
    ensures i < |s| ==> s[i] == c
  {
    if |s| == 0 || s[0] == c then 0 else 1 + IndexOf(s[1..], c)
  }

  /** strings.Split with a one-character separator: one more part than separators. */
  function Split(s: string, sep: char): (parts: seq<string>)
    ensures |parts| == multiset(s)[sep] + 1
    ensures forall i :: 0 <= i < |parts| ==> sep !in parts[i]
    decreases |s|
  {
    var i := IndexOf(s, sep);
    if i == |s| then
      assert s[..i] == s;
      [s]
    else
      assert s == s[..i] + [sep] + s[i + 1..];
      [s[..i]] + Split(s[i + 1..], sep)
  }

  /** Joining the parts of a split with the separator restores the input. */
  lemma {:induction false} JoinOfSplit(s: string, sep: char)
    ensures Join(Split(s, sep), [sep]) == s
    decreases |s|
  {
    var i := IndexOf(s, sep);
    if i < |s| {
      var head, tail := s[..i], s[i + 1..];
      JoinOfSplit(tail, sep);
      SplitCons(s, sep);
      JoinCons(head, Split(tail, sep), [sep]);
      CutAt(s, i);
    } else {
      assert s[..i] == s;
    }
  }

  lemma CutAt(s: string, i: nat)
    requires i < |s|
    ensures s == s[..i] + [s[i]] + s[i + 1..]
  {
  }

  lemma SplitCons(s: string, sep: char)
    requires IndexOf(s, sep) < |s|
    ensures Split(s, sep) == [s[..IndexOf(s, sep)]] + Split(s[IndexOf(s, sep) + 1..], sep)
  {
  }

  lemma JoinCons(head: string, parts: seq<string>, sep: string)
    requires |parts| > 0
    ensures Join([head] + parts, sep) == head + sep + Join(parts, sep)
  {
    assert ([head] + parts)[1..] == parts;
  }

  lemma {:induction false} IndexOfFirst(w: string, c: char, rest: string)
    requires c !in w
    requires |rest| == 0 || rest[0] == c
    ensures IndexOf(w + rest, c) == |w|
    decreases |w|
  {
    if |w| > 0 {
      assert (w + rest)[1..] == w[1..] + rest;
      IndexOfFirst(w[1..], c, rest);
    } else {
      assert w + rest == rest;
    }
  }

  /** Splitting separator-free parts joined by the separator gives the parts back. */
  lemma {:induction false} SplitOfJoin(parts: seq<string>, sep: char)
    requires |parts| > 0
    requires forall i :: 0 <= i < |parts| ==> sep !in parts[i]
    ensures Split(Join(parts, [sep]), sep) == parts
    decreases |parts|
  {
    var p := parts[0];
    if |parts| == 1 {
      IndexOfFirst(p, sep, []);
      assert p + [] == p;
    } else {
      var rest := Join(parts[1..], [sep]);
      var s := p + [sep] + rest;
      assert Join(parts, [sep]) == s;
      IndexOfFirst(p, sep, [sep] + rest);
      assert s == p + ([sep] + rest);
      assert s[..|p|] == p;
      assert s[|p| + 1..] == rest;
      SplitOfJoin(parts[1..], sep);
      assert parts == [p] + parts[1..];
    }
  }

  // --------------------------------------------------------------- Numbers

  predicate IsDigit(c: char) {
    '0' <= c <= '9'
  }

  predicate AllDigits(s: string) {
    forall i :: 0 <= i < |s| ==> IsDigit(s[i])
  }

  /** The value of a string of decimal digits, most significant first. */
  function DigitsValue(s: string): nat
    requires AllDigits(s)
    decreases |s|
  {
    if |s| == 0 then 0
    else 10 * DigitsValue(s[..|s| - 1]) + (s[|s| - 1] as int - '0' as int)
  }

  /** strconv.Itoa on a natural number: its canonical decimal digits. */
  function NatToString(n: nat): (s: string)
    ensures |s| > 0
    ensures AllDigits(s)
    decreases n
  {
    (if n < 10 then "" else NatToString(n / 10)) + [('0' as int + n % 10) as char]
  }

  /** strconv.Itoa: decimal digits with a leading minus for negative numbers. */
  function IntToString(x: int): (s: string)
    ensures |s| > 0 && (x < 0 <==> s[0] == '-')
    ensures forall i :: 0 < i < |s| ==> IsDigit(s[i])
  {
    if x < 0 then "-" + NatToString(-x) else NatToString(x)
  }

  /**
   * strconv.Atoi without the 64-bit range check: an optional sign followed by
   * at least one decimal digit, anything else is an error (None).
   */
  function ParseInt(s: string): (r: Option<int>)
    ensures r.Some? ==> |s| > 0 && forall i :: 0 < i < |s| ==> IsDigit(s[i])
    ensures r.Some? && r.value < 0 ==> s[0] == '-'
    ensures |s| > 0 && AllDigits(s) ==> r.Some? && r.value >= 0
  {
    if |s| > 0 && (s[0] == '+' || s[0] == '-') then
      var digits := s[1..];
      if |digits| > 0 && AllDigits(digits) then
        var v: int := DigitsValue(digits);
        Some(if s[0] == '-' then -v else v)
      else None
    else if |s| > 0 && AllDigits(s) then Some(DigitsValue(s))
    else None
  }

  lemma {:induction false} DigitsOfNat(n: nat)
    ensures DigitsValue(NatToString(n)) == n
    decreases n
  {
    var prefix := if n < 10 then "" else NatToString(n / 10);
    var last := ('0' as int + n % 10) as char;
    var s := NatToString(n);
    assert s == prefix + [last];
    assert s[..|s| - 1] == prefix;
    assert s[|s| - 1] == last;
    assert last as int - '0' as int == n % 10;
    if n >= 10 {
      DigitsOfNat(n / 10);
    }
    assert DigitsValue(prefix) == n / 10;
    assert n == 10 * (n / 10) + n % 10;
  }

  /** Itoa writes a single word: non-empty and free of white space. */
  lemma IntToStringIsWord(x: int)
    ensures |IntToString(x)| > 0 && NoSpace(IntToString(x))
  {
    var digits := NatToString(if x < 0 then -x else x);
    assert forall i :: 0 <= i < |digits| ==> IsDigit(digits[i]);
    if x < 0 {
      assert IntToString(x) == "-" + digits;
      assert forall i :: 1 <= i < |IntToString(x)| ==> IntToString(x)[i] == digits[i - 1];
    }
  }

  /** Atoi inverts Itoa on every integer. */
  lemma ParseIntOfIntToString(x: int)
    ensures ParseInt(IntToString(x)) == Some(x)
  {
    if x < 0 {
      var d := NatToString(-x);
      DigitsOfNat(-x);
      assert ("-" + d)[1..] == d;
    } else {
      DigitsOfNat(x);
      assert IsDigit(NatToString(x)[0]);
    }
  }
}

=== FILE: validate.dfy ===
/**
 * The input validators of internal/dataops/dataops.go: room lines, tunnel
 * lines, the start/end and duplicate checks, and CreateGraph's walk over the
 * already-split lines of the puzzle description.
 */
module Validate {
  import opened Wrappers
  import opened Entity
  import opened Text

  // ------------------------------------------------------------- parseRoom

  /** A room name the parser accepts: one non-empty field not starting with "L". */
  predicate ValidName(name: string) {
    |name| > 0 && NoSpace(name) && !HasPrefix(name, "L")
  }

  /**
   * parseRoom: exactly three white-space separated fields, the last two
   * integers, and a name that cannot be mistaken for an ant label.
   */
  function ParseRoom(line: string): (r: Result<Room, Error>)
    ensures r.Failure? ==> r.error == InvalidRoomFormat
    ensures r.Success? ==> ValidName(r.value.name)
    ensures r.Success? ==>
      var f := Fields(line);
      && |f| == 3 && f[0] == r.value.name
      && ParseInt(f[1]) == Some(r.value.x) && ParseInt(f[2]) == Some(r.value.y)
    ensures var f := Fields(line);
      |f| == 3 && ParseInt(f[1]).Some? && ParseInt(f[2]).Some? && !HasPrefix(f[0], "L") ==> r.Success?
  {
    var fields := Fields(line);
    if |fields| != 3 then Failure(InvalidRoomFormat)
    else
      var x := ParseInt(fields[1]);
      var y := ParseInt(fields[2]);
      if x.None? || y.None? || HasPrefix(fields[0], "L") then Failure(InvalidRoomFormat)
      else Success(Room(fields[0], x.value, y.value))
  }

  /** The canonical room line "name x y". */
  function RoomLine(room: Room): string {
    room.name + " " + IntToString(room.x) + " " + IntToString(room.y)
  }

  /** parseRoom looks only at the fields, so spacing does not matter. */
  lemma ParseRoomIgnoresSpacing(line: string, room: Room)
    requires ValidName(room.name) && Fields(line) == Fields(RoomLine(room))
    ensures ParseRoom(line) == Success(room)
  {
    ParseRoomOfRoomLine(room);
  }

  /** Writing an accepted room back out in canonical form reads back the same room. */
  lemma ParseRoomCanonical(line: string)
    requires ParseRoom(line).Success?
    ensures ParseRoom(RoomLine(ParseRoom(line).value)) == ParseRoom(line)
  {
    ParseRoomOfRoomLine(ParseRoom(line).value);
  }

  lemma RoomLineFields(room: Room)
    requires ValidName(room.name)
    ensures Fields(RoomLine(room)) == [room.name, IntToString(room.x), IntToString(room.y)]
  {
    var xs, ys := IntToString(room.x), IntToString(room.y);
    var words := [room.name, xs, ys];
    IntToStringIsWord(room.x);
    IntToStringIsWord(room.y);
    assert words[1..] == [xs, ys] && [xs, ys][1..] == [ys];
    assert Join([xs, ys], " ") == xs + " " + ys;
    assert Join(words, " ") == room.name + " " + (xs + " " + ys);
    assert RoomLine(room) == room.name + " " + (xs + " " + ys);
    FieldsOfJoin(words);
  }

  /** Round trip: parseRoom reads back every valid room from its canonical line. */
  lemma ParseRoomOfRoomLine(room: Room)
    requires ValidName(room.name)
    ensures ParseRoom(RoomLine(room)) == Success(room)
  {
    RoomLineFields(room);
    ParseIntOfIntToString(room.x);
    ParseIntOfIntToString(room.y);
  }

  // --------------------------------------------------------- parsePosition

  /**
   * parsePosition: the line splits on "-" into exactly two parts, both of
   * them registered room names; the tunnel joins the registered rooms.
   */
  function ParsePosition(line: string, names: map<string, Room>): (r: Result<Position, Error>)
    ensures r.Failure? ==> r.error == InvalidDataFormat
    ensures r.Success? ==> r.value.start in names.Values && r.value.end in names.Values
  {
    var fromTo := Split(line, '-');
    if |fromTo| != 2 then Failure(InvalidDataFormat)
    else if fromTo[0] !in names then Failure(InvalidDataFormat)
    else if fromTo[1] !in names then Failure(InvalidDataFormat)
    else Success(Position(names[fromTo[0]], names[fromTo[1]]))
  }

  /** A tunnel line is accepted exactly when it is "a-b" for dash-free registered names. */
  lemma ParsePositionIff(line: string, names: map<string, Room>)
    ensures ParsePosition(line, names).Success? <==>
      exists a, b :: a in names && b in names && '-' !in a && '-' !in b && line == a + "-" + b
  {
    var fromTo := Split(line, '-');
    if ParsePosition(line, names).Success? {
      JoinOfSplit(line, '-');
      assert line == fromTo[0] + "-" + fromTo[1];
    }
    if exists a, b :: a in names && b in names && '-' !in a && '-' !in b && line == a + "-" + b {
      var a, b :| a in names && b in names && '-' !in a && '-' !in b && line == a + "-" + b;
      ParsePositionOfLine(a, b, names);
    }
  }

  /** Round trip: "a-b" for registered dash-free names a and b gives the tunnel between them. */
  lemma ParsePositionOfLine(a: string, b: string, names: map<string, Room>)
    requires a in names && b in names && '-' !in a && '-' !in b
    ensures ParsePosition(a + "-" + b, names) == Success(Position(names[a], names[b]))
  {
    assert Join([a, b], "-") == a + "-" + b;
    SplitOfJoin([a, b], '-');
  }

  // ------------------------------------------------------------ checkRooms

  /** A room the graph holds: an ordinary room, the start or the end. */
  predicate Registered(g: FarmGraph, room: Room) {
    room in g.rooms || g.start == Some(room) || g.end == Some(room)
  }

  /**
   * What the room section guarantees: ordinary rooms have distinct names and
   * distinct coordinates, every room is filed under its own name, and every
   * filed room is valid and held by the graph.
   */
  predicate WellFormed(g: FarmGraph) {
    && (forall i, j :: 0 <= i < j < |g.rooms| ==> g.rooms[i].name != g.rooms[j].name)
    && (forall i, j :: 0 <= i < j < |g.rooms| ==>
          g.rooms[i].x != g.rooms[j].x || g.rooms[i].y != g.rooms[j].y)
    && (forall i :: 0 <= i < |g.rooms| ==> g.rooms[i].name in g.roomNames)
    && (g.start.Some? ==> g.start.value.name in g.roomNames)
    && (g.end.Some? ==> g.end.value.name in g.roomNames)
    && (forall n :: n in g.roomNames ==>
          g.roomNames[n].name == n && ValidName(n) && Registered(g, g.roomNames[n]))
  }

  /** Some ordinary room already sits at (x, y). */
  predicate CoordinatesTaken(rooms: seq<Room>, x: int, y: int) {
    exists k :: 0 <= k < |rooms| && rooms[k].x == x && rooms[k].y == y
  }

  /** The graph before the first room line: the ant count and nothing else. */
  function EmptyGraph(ants: int): (g: FarmGraph)
    ensures WellFormed(g)
  {
    FarmGraph(ants, None, None, [], [], map[])
  }

  /**
   * checkRooms: one line of the room section. "##start" and "##end" lines
   * carry the start and end rooms (at most one each, the marker line already
   * merged with the room line), comments and empty lines are skipped, and any
   * other line is an ordinary room whose name and coordinates must be new.
   * Start and end rooms are filed by name without any duplicate check.
   */
  function CheckRooms(line: string, g: FarmGraph): (r: Result<FarmGraph, Error>)
    ensures r.Success? ==>
      && r.value.ants == g.ants && r.value.positions == g.positions
      && g.rooms <= r.value.rooms && g.roomNames.Keys <= r.value.roomNames.Keys
      && (g.start.Some? ==> r.value.start == g.start)
      && (g.end.Some? ==> r.value.end == g.end)
    ensures r.Failure? ==> r.error in {InvalidRoomFormat, InvalidDataFormat}
    ensures HasPrefix(line, "##start") && r.Success? ==>
      && ParseRoom(TrimPrefix(line, "##start")).Success?
      && var room := ParseRoom(TrimPrefix(line, "##start")).value;
      && r.value.start == Some(room) && r.value.roomNames == g.roomNames[room.name := room]
      && r.value.rooms == g.rooms && r.value.end == g.end
    ensures !HasPrefix(line, "##start") && HasPrefix(line, "##end") && r.Success? ==>
      && ParseRoom(TrimPrefix(line, "##end")).Success?
      && var room := ParseRoom(TrimPrefix(line, "##end")).value;
      && r.value.end == Some(room) && r.value.roomNames == g.roomNames[room.name := room]
      && r.value.rooms == g.rooms && r.value.start == g.start
    ensures HasPrefix(line, "##start") && g.start.None? ==>
      var parsed := ParseRoom(TrimPrefix(line, "##start"));
      (r.Success? <==> parsed.Success?) && (parsed.Failure? ==> r == Failure(InvalidRoomFormat))
    ensures !HasPrefix(line, "##start") && HasPrefix(line, "##end") && g.end.None? ==>
      var parsed := ParseRoom(TrimPrefix(line, "##end"));
      (r.Success? <==> parsed.Success?) && (parsed.Failure? ==> r == Failure(InvalidRoomFormat))
    ensures !HasPrefix(line, "##start") && !HasPrefix(line, "##end") && (HasPrefix(line, "#") || line == "") ==>
      r == Success(g)
    ensures !HasPrefix(line, "#") && line != "" && r.Success? ==>
      && ParseRoom(line).Success?
      && var room := ParseRoom(line).value;
      && r.value.rooms == g.rooms + [room] && r.value.roomNames == g.roomNames[room.name := room]
      && r.value.start == g.start && r.value.end == g.end
  {
    if HasPrefix(line, "##start") then
      if g.start.Some? then Failure(InvalidDataFormat)
      else
        match ParseRoom(TrimPrefix(line, "##start"))
        case Failure(e) => Failure(e)
        case Success(room) =>
          Success(g.(start := Some(room), roomNames := g.roomNames[room.name := room]))
    else if HasPrefix(line, "##end") then
      if g.end.Some? then Failure(InvalidDataFormat)
      else
        match ParseRoom(TrimPrefix(line, "##end"))
        case Failure(e) => Failure(e)
        case Success(room) =>
          Success(g.(end := Some(room), roomNames := g.roomNames[room.name := room]))
    else if HasPrefix(line, "#") || line == "" then Success(g)
    else
      match ParseRoom(line)
      case Failure(e) => Failure(e)
      case Success(room) =>
        if room.name in g.roomNames then Failure(InvalidDataFormat)
        else if CoordinatesTaken(g.rooms, room.x, room.y) then Failure(InvalidDataFormat)
        else Success(g.(rooms := g.rooms + [room], roomNames := g.roomNames[room.name := room]))
  }

  /** A "##start" line carrying a valid room is accepted while no start room is set. */
  lemma StartLine(room: Room, g: FarmGraph)
    requires ValidName(room.name) && g.start.None?
    ensures CheckRooms("##start" + RoomLine(room), g) ==
      Success(g.(start := Some(room), roomNames := g.roomNames[room.name := room]))
  {
    var line := "##start" + RoomLine(room);
    assert line[..7] == "##start";
    assert TrimPrefix(line, "##start") == RoomLine(room);
    ParseRoomOfRoomLine(room);
  }

  /** An "##end" line carrying a valid room is accepted while no end room is set. */
  lemma EndLine(room: Room, g: FarmGraph)
    requires ValidName(room.name) && g.end.None?
    ensures CheckRooms("##end" + RoomLine(room), g) ==
      Success(g.(end := Some(room), roomNames := g.roomNames[room.name := room]))
  {
    var line := "##end" + RoomLine(room);
    assert line[..5] == "##end";
    MarkersExclusive(line);
    assert TrimPrefix(line, "##end") == RoomLine(room);
    ParseRoomOfRoomLine(room);
  }

  /**
   * An ordinary room line is accepted exactly when its room has a fresh name
   * and free coordinates; the room is appended and filed.
   */
  lemma OrdinaryLine(room: Room, g: FarmGraph)
    requires ValidName(room.name) && !HasPrefix(room.name, "#")
    requires room.name !in g.roomNames && !CoordinatesTaken(g.rooms, room.x, room.y)
    ensures CheckRooms(RoomLine(room), g) ==
      Success(g.(rooms := g.rooms + [room], roomNames := g.roomNames[room.name := room]))
  {
    var line := RoomLine(room);
    assert line[0] == room.name[0] != '#' by {
      assert room.name[..1] == [room.name[0]];
    }
    assert line[..1] == [line[0]];
    assert !HasPrefix(line, "##start") by {
      if |line| >= 7 {
        assert line[..7][0] == line[0];
      }
    }
    assert !HasPrefix(line, "##end") by {
      if |line| >= 5 {
        assert line[..5][0] == line[0];
      }
    }
    ParseRoomOfRoomLine(room);
  }

  /** checkRooms keeps the room section well formed. */
  lemma CheckRoomsKeepsWellFormed(line: string, g: FarmGraph)
    ensures WellFormed(g) && CheckRooms(line, g).Success? ==> WellFormed(CheckRooms(line, g).value)
  {
    if WellFormed(g) && CheckRooms(line, g).Success? {
      if HasPrefix(line, "##start") {
        FileStart(g, ParseRoom(TrimPrefix(line, "##start")).value);
      } else if HasPrefix(line, "##end") {
        FileEnd(g, ParseRoom(TrimPrefix(line, "##end")).value);
      } else if !HasPrefix(line, "#") && line != "" {
        FileOrdinary(g, ParseRoom(line).value);
      }
    }
  }

  lemma FileStart(g: FarmGraph, room: Room)
    requires WellFormed(g) && g.start.None? && ValidName(room.name)
    ensures WellFormed(g.(start := Some(room), roomNames := g.roomNames[room.name := room]))
  {
  }

  lemma FileEnd(g: FarmGraph, room: Room)
    requires WellFormed(g) && g.end.None? && ValidName(room.name)
    ensures WellFormed(g.(end := Some(room), roomNames := g.roomNames[room.name := room]))
  {
  }

  lemma FileOrdinary(g: FarmGraph, room: Room)
    requires WellFormed(g) && ValidName(room.name)
    requires room.name !in g.roomNames && !CoordinatesTaken(g.rooms, room.x, room.y)
    ensures WellFormed(g.(rooms := g.rooms + [room], roomNames := g.roomNames[room.name := room]))
  {
    var rooms := g.rooms + [room];
    var h := g.(rooms := rooms, roomNames := g.roomNames[room.name := room]);
    forall i, j | 0 <= i < j < |rooms|
      ensures rooms[i].name != rooms[j].name
      ensures rooms[i].x != rooms[j].x || rooms[i].y != rooms[j].y
    {
      assert rooms[i] == g.rooms[i];
      if j < |g.rooms| {
        assert rooms[j] == g.rooms[j];
      } else {
        assert g.rooms[i].name in g.roomNames;
      }
    }
    forall i | 0 <= i < |rooms|
      ensures rooms[i].name in h.roomNames
    {
      if i < |g.rooms| {
        assert rooms[i] == g.rooms[i];
      }
    }
    forall n | n in h.roomNames
      ensures Registered(h, h.roomNames[n])
    {
      if n != room.name {
        assert Registered(g, g.roomNames[n]);
      }
    }
  }

  /**
   * checkRooms rejects a second start, a second end, an ordinary room whose
   * name is already filed (start and end included) and an ordinary room at
   * the coordinates of an earlier ordinary room; a bad room line is reported
   * as parseRoom reports it.
   */
  lemma CheckRoomsRejects(line: string, g: FarmGraph)
    ensures HasPrefix(line, "##start") && g.start.Some? ==> CheckRooms(line, g) == Failure(InvalidDataFormat)
    ensures !HasPrefix(line, "##start") && HasPrefix(line, "##end") && g.end.Some? ==>
      CheckRooms(line, g) == Failure(InvalidDataFormat)
    ensures !HasPrefix(line, "#") && line != "" && ParseRoom(line).Failure? ==>
      CheckRooms(line, g) == Failure(InvalidRoomFormat)
    ensures !HasPrefix(line, "#") && line != "" && ParseRoom(line).Success? ==>
      var room := ParseRoom(line).value;
      (room.name in g.roomNames || CoordinatesTaken(g.rooms, room.x, room.y)) <==> CheckRooms(line, g).Failure?
  {
    if HasPrefix(line, "##start") {
      assert line[..7][0] == '#';
      assert line[..1] == "#";
    }
    if HasPrefix(line, "##end") {
      assert line[..5][0] == '#';
      assert line[..1] == "#";
    }
  }

  /** checkPositions: both the start and the end room were given, the start checked first. */
  function CheckPositions(g: FarmGraph): (r: Option<Error>)
    ensures r == None <==> g.start.Some? && g.end.Some?
    ensures g.start.None? ==> r == Some(InvalidDataOrNoStartRoomFound)
    ensures g.start.Some? && g.end.None? ==> r == Some(InvalidDataOrNoEndRoomFound)
  {
    if g.start.None? then Some(InvalidDataOrNoStartRoomFound)
    else if g.end.None? then Some(InvalidDataOrNoEndRoomFound)
    else None
  }

  // ----------------------------------------------------------- CreateGraph

  /** Index of the first line containing a dash, or |lines| when none does. */
  function FirstDash(lines: seq<string>): (i: nat)
    ensures i <= |lines|
    ensures forall k :: 0 <= k < i ==> '-' !in lines[k]
    ensures i < |lines| ==> '-' in lines[i]
  {
    if |lines| == 0 || '-' in lines[0] then 0 else 1 + FirstDash(lines[1..])
  }

  /**
   * The rooms the ordinary lines of `lines` describe, in input order: every
   * line that is neither skipped nor a marker line and whose room parses.
   */
  function OrdinaryRooms(lines: seq<string>): (rooms: seq<Room>)
    ensures |rooms| <= |lines|
    ensures forall k :: 0 <= k < |rooms| ==> ValidName(rooms[k].name)
    decreases |lines|
  {
    if |lines| == 0 then [] else LineRoom(lines[0]) + OrdinaryRooms(lines[1..])
  }

  /** The ordinary room one line describes, if any. */
  function LineRoom(line: string): (rooms: seq<Room>)
    ensures |rooms| <= 1
    ensures forall k :: 0 <= k < |rooms| ==> ValidName(rooms[k].name)
  {
    if Skipped(line) || ParseRoom(line).Failure? then [] else [ParseRoom(line).value]
  }

  /** Appending one line's room and then the rest's is appending the rooms of all the lines. */
  lemma OrdinaryRoomsStep(lines: seq<string>, before: seq<Room>, after: seq<Room>)
    requires |lines| > 0 && after == before + LineRoom(lines[0])
    ensures after + OrdinaryRooms(lines[1..]) == before + OrdinaryRooms(lines)
  {
    var first, others := LineRoom(lines[0]), OrdinaryRooms(lines[1..]);
    assert OrdinaryRooms(lines) == first + others;
    AppendAssociates(before, first, others);
  }

  lemma AppendAssociates<T>(a: seq<T>, b: seq<T>, c: seq<T>)
    ensures a + b + c == a + (b + c)
  {
  }

  /** An accepted line appends exactly its own ordinary room, if any, to the room list. */
  lemma CheckRoomsAppends(line: string, g: FarmGraph)
    ensures CheckRooms(line, g).Success? ==> CheckRooms(line, g).value.rooms == g.rooms + LineRoom(line)
  {
    if HasPrefix(line, "##start") || HasPrefix(line, "##end") {
      assert line[..1] == line[..5][..1];
      assert Skipped(line);
    }
  }

  /** FirstDash is the index of the first line holding a dash. */
  lemma FirstDashAt(lines: seq<string>, i: nat)
    requires i < |lines| && '-' in lines[i]
    requires forall k :: 0 <= k < i ==> '-' !in lines[k]
    ensures FirstDash(lines) == i
  {
  }

  /** The room section: checkRooms on each line in turn, stopping at the first error. */
  function RoomSection(lines: seq<string>, g: FarmGraph): (r: Result<FarmGraph, Error>)
    ensures WellFormed(g) && r.Success? ==> WellFormed(r.value)
    ensures r.Success? ==>
      && r.value.ants == g.ants && r.value.positions == g.positions
      && g.roomNames.Keys <= r.value.roomNames.Keys
      && (g.start.Some? ==> r.value.start == g.start)
      && (g.end.Some? ==> r.value.end == g.end)
      && r.value.rooms == g.rooms + OrdinaryRooms(lines)
    ensures r.Failure? ==> r.error in {InvalidRoomFormat, InvalidDataFormat}
    decreases |lines|
  {
    if |lines| == 0 then Success(g)
    else
      match CheckRooms(lines[0], g)
      case Failure(e) => Failure(e)
      case Success(next) =>
        CheckRoomsKeepsWellFormed(lines[0], g);
        CheckRoomsAppends(lines[0], g);
        OrdinaryRoomsStep(lines, g.rooms, next.rooms);
        RoomSection(lines[1..], next)
  }

  /** A comment or empty line, which both loops skip. */
  predicate Skipped(line: string) {
    HasPrefix(line, "#") || line == ""
  }

  /** The "##start" and "##end" markers exclude each other. */
  lemma MarkersExclusive(line: string)
    ensures !(HasPrefix(line, "##start") && HasPrefix(line, "##end"))
  {
    if HasPrefix(line, "##start") {
      assert line[2] == line[..7][2] == 's';
      assert line[..5][2] == line[2];
    }
  }

  /** The room a room-section line carries parses; comments and empty lines carry none. */
  predicate RoomLineParses(line: string) {
    if HasPrefix(line, "##start") then ParseRoom(TrimPrefix(line, "##start")).Success?
    else if HasPrefix(line, "##end") then ParseRoom(TrimPrefix(line, "##end")).Success?
    else Skipped(line) || ParseRoom(line).Success?
  }

  /** The room loop fails on any line whose room does not parse. */
  lemma {:induction false} RoomSectionFailsOnBadRoom(lines: seq<string>, g: FarmGraph, k: nat)
    requires k < |lines| && !RoomLineParses(lines[k])
    ensures RoomSection(lines, g).Failure?
    decreases k
  {
    var c := CheckRooms(lines[0], g);
    if k == 0 {
      assert c.Failure?;
    } else if c.Success? {
      assert lines[1..][k - 1] == lines[k];
      RoomSectionFailsOnBadRoom(lines[1..], c.value, k - 1);
    }
  }

  /**
   * A "##start" line of an accepted room section is its only one: the start
   * room was still open before it, and the room it carries is the start room
   * afterwards. Without such a line the start room stays as it was.
   */
  lemma {:induction false} RoomSectionStart(lines: seq<string>, g: FarmGraph)
    ensures var r := RoomSection(lines, g);
      r.Success? ==> forall k :: 0 <= k < |lines| && HasPrefix(lines[k], "##start") ==>
        && g.start.None? && r.value.start.Some?
        && ParseRoom(TrimPrefix(lines[k], "##start")) == Success(r.value.start.value)
    ensures var r := RoomSection(lines, g);
      r.Success? && (forall k :: 0 <= k < |lines| ==> !HasPrefix(lines[k], "##start")) ==>
        r.value.start == g.start
    decreases |lines|
  {
    if |lines| > 0 {
      var c := CheckRooms(lines[0], g);
      if c.Success? {
        var next := c.value;
        StartStep(lines[0], g);
        RoomSectionStart(lines[1..], next);
        var r := RoomSection(lines, g);
        if r.Success? {
          assert r == RoomSection(lines[1..], next);
          MarkerStep(lines, "##start", g.start, next.start, r.value.start);
        }
      }
    }
  }

  /**
   * One step of the marker induction: `before`, `mid` and `after` are the
   * marked room before the first line, after it, and after all the lines.
   */
  lemma MarkerStep(lines: seq<string>, marker: string, before: Option<Room>, mid: Option<Room>, after: Option<Room>)
    requires |lines| > 0
    requires HasPrefix(lines[0], marker) ==>
      before.None? && mid.Some? && ParseRoom(TrimPrefix(lines[0], marker)) == Success(mid.value)
    requires !HasPrefix(lines[0], marker) ==> mid == before
    requires mid.Some? ==> after == mid
    requires forall k :: 0 <= k < |lines[1..]| && HasPrefix(lines[1..][k], marker) ==>
      mid.None? && after.Some? && ParseRoom(TrimPrefix(lines[1..][k], marker)) == Success(after.value)
    requires (forall k :: 0 <= k < |lines[1..]| ==> !HasPrefix(lines[1..][k], marker)) ==> after == mid
    ensures forall k :: 0 <= k < |lines| && HasPrefix(lines[k], marker) ==>
      before.None? && after.Some? && ParseRoom(TrimPrefix(lines[k], marker)) == Success(after.value)
    ensures (forall k :: 0 <= k < |lines| ==> !HasPrefix(lines[k], marker)) ==> after == before
  {
    forall k | 0 < k < |lines| && HasPrefix(lines[k], marker)
      ensures before.None? && mid.None? && after.Some?
      ensures ParseRoom(TrimPrefix(lines[k], marker)) == Success(after.value)
    {
      assert lines[1..][k - 1] == lines[k];
    }
    if forall k :: 0 <= k < |lines| ==> !HasPrefix(lines[k], marker) {
      forall k | 0 <= k < |lines[1..]|
        ensures !HasPrefix(lines[1..][k], marker)
      {
        assert lines[1..][k] == lines[k + 1];
      }
      assert !HasPrefix(lines[0], marker);
    }
  }

  /** What one accepted line does to the start room. */
  lemma StartStep(line: string, g: FarmGraph)
    ensures var c := CheckRooms(line, g);
      c.Success? ==>
        && (HasPrefix(line, "##start") ==>
              g.start.None? && c.value.start.Some? && ParseRoom(TrimPrefix(line, "##start")) == Success(c.value.start.value))
        && (!HasPrefix(line, "##start") ==> c.value.start == g.start)
  {
  }

  /** What one accepted line does to the end room. */
  lemma EndStep(line: string, g: FarmGraph)
    ensures var c := CheckRooms(line, g);
      c.Success? ==>
        && (HasPrefix(line, "##end") ==>
              g.end.None? && c.value.end.Some? && ParseRoom(TrimPrefix(line, "##end")) == Success(c.value.end.value))
        && (!HasPrefix(line, "##end") ==> c.value.end == g.end)
  {
    MarkersExclusive(line);
  }

  /** The same for the "##end" line and the end room. */
  lemma {:induction false} RoomSectionEnd(lines: seq<string>, g: FarmGraph)
    ensures var r := RoomSection(lines, g);
      r.Success? ==> forall k :: 0 <= k < |lines| && HasPrefix(lines[k], "##end") ==>
        && g.end.None? && r.value.end.Some?
        && ParseRoom(TrimPrefix(lines[k], "##end")) == Success(r.value.end.value)
    ensures var r := RoomSection(lines, g);
      r.Success? && (forall k :: 0 <= k < |lines| ==> !HasPrefix(lines[k], "##end")) ==>
        r.value.end == g.end
    decreases |lines|
  {
    if |lines| > 0 {
      var c := CheckRooms(lines[0], g);
      if c.Success? {
        var next := c.value;
        EndStep(lines[0], g);
        RoomSectionEnd(lines[1..], next);
        var r := RoomSection(lines, g);
        if r.Success? {
          assert r == RoomSection(lines[1..], next);
          MarkerStep(lines, "##end", g.end, next.end, r.value.end);
        }
      }
    }
  }

  /**
   * The tunnel section: comment and empty lines are skipped, every other
   * line must be a tunnel between registered rooms, and tunnels are kept in
   * input order. Any bad tunnel is reported as a missing start room.
   */
  function TunnelSection(lines: seq<string>, g: FarmGraph): (r: Result<FarmGraph, Error>)
    ensures r.Failure? ==> r.error == InvalidDataOrNoStartRoomFound
    ensures r.Success? ==>
      && r.value.(positions := g.positions) == g
      && g.positions <= r.value.positions
      && (forall k :: |g.positions| <= k < |r.value.positions| ==>
            r.value.positions[k].start in g.roomNames.Values &&
            r.value.positions[k].end in g.roomNames.Values)
    decreases |lines|
  {
    if |lines| == 0 then Success(g)
    else if Skipped(lines[0]) then TunnelSection(lines[1..], g)
    else
      match ParsePosition(lines[0], g.roomNames)
      case Failure(_) => Failure(InvalidDataOrNoStartRoomFound)
      case Success(pos) => TunnelSection(lines[1..], g.(positions := g.positions + [pos]))
  }

  /** The lines neither loop skips, in input order: the ordinary rooms of the room section, the tunnels of the tunnel section. */
  function ContentLines(lines: seq<string>): (r: seq<string>)
    ensures |r| <= |lines|
    ensures forall k :: 0 <= k < |r| ==> !Skipped(r[k])
    decreases |lines|
  {
    if |lines| == 0 then []
    else if Skipped(lines[0]) then ContentLines(lines[1..])
    else [lines[0]] + ContentLines(lines[1..])
  }

  /**
   * The tunnel loop fails exactly when one of its tunnel lines does not
   * parse; otherwise it appends one tunnel per tunnel line, each the parse
   * of its line, in input order.
   */
  lemma {:induction false} TunnelSectionParsesEachLine(lines: seq<string>, g: FarmGraph)
    ensures var tunnels := ContentLines(lines);
      TunnelSection(lines, g).Failure? <==>
        exists k :: 0 <= k < |tunnels| && ParsePosition(tunnels[k], g.roomNames).Failure?
    ensures var tunnels := ContentLines(lines);
      var r := TunnelSection(lines, g);
      r.Success? ==>
        && |r.value.positions| == |g.positions| + |tunnels|
        && forall k :: 0 <= k < |tunnels| ==>
             ParsePosition(tunnels[k], g.roomNames) == Success(r.value.positions[|g.positions| + k])
    decreases |lines|
  {
    if |lines| > 0 {
      var tunnels := ContentLines(lines);
      var rest := ContentLines(lines[1..]);
      if Skipped(lines[0]) {
        TunnelSectionParsesEachLine(lines[1..], g);
      } else {
        assert tunnels == [lines[0]] + rest;
        assert tunnels[0] == lines[0];
        forall k | 0 <= k < |rest|
          ensures tunnels[k + 1] == rest[k]
        {
        }
        match ParsePosition(lines[0], g.roomNames)
        case Failure(_) =>
        case Success(pos) =>
          var h := g.(positions := g.positions + [pos]);
          TunnelSectionParsesEachLine(lines[1..], h);
          var r := TunnelSection(lines, g);
          if r.Success? {
            assert (g.positions + [pos])[|g.positions|] == pos;
            assert r.value.positions[|g.positions|] == pos;
            forall k | 0 <= k < |tunnels|
              ensures ParsePosition(tunnels[k], g.roomNames) == Success(r.value.positions[|g.positions| + k])
            {
              if k > 0 {
                assert tunnels[k] == rest[k - 1];
              }
            }
          }
          if exists k :: 0 <= k < |tunnels| && ParsePosition(tunnels[k], g.roomNames).Failure? {
            var k :| 0 <= k < |tunnels| && ParsePosition(tunnels[k], g.roomNames).Failure?;
            assert k > 0 && tunnels[k] == rest[k - 1];
          }
      }
    }
  }

  /**
   * CreateGraph over the lines of the description: the ant count on the first
   * line, room lines up to the first line with a dash, the start/end check,
   * then the tunnel lines.
   */
  function CreateGraph(lines: seq<string>): (r: Result<FarmGraph, Error>)
    requires |lines| > 0
    ensures r == Failure(InvalidDataOrAntsNum) <==>
      ParseInt(lines[0]).None? || ParseInt(lines[0]).value <= 0
  {
    var ants := ParseInt(lines[0]);
    if ants.None? || ants.value <= 0 then Failure(InvalidDataOrAntsNum)
    else
      var rest := lines[1..];
      var d := FirstDash(rest);
      match RoomSection(rest[..d], EmptyGraph(ants.value))
      case Failure(e) => Failure(e)
      case Success(g) =>
        match CheckPositions(g)
        case Some(e) => Failure(e)
        case None =>
          if d == |rest| then Failure(InvalidDataOrNoStartRoomFound)
          else TunnelSection(rest[d..], g)
  }

  /** A graph that was built: it is everything the solver may assume of its input. */
  predicate Accepted(g: FarmGraph) {
    && g.ants > 0
    && g.start.Some? && g.end.Some?
    && WellFormed(g)
    && (forall k :: 0 <= k < |g.positions| ==>
          g.positions[k].start in g.roomNames.Values && g.positions[k].end in g.roomNames.Values)
  }

  /**
   * Whatever CreateGraph builds has a positive ant count read from the first
   * line, a start and an end room, well-formed rooms, and tunnels between
   * registered rooms only.
   */
  lemma CreateGraphAccepted(lines: seq<string>)
    requires |lines| > 0
    ensures CreateGraph(lines).Success? ==>
      Accepted(CreateGraph(lines).value) && ParseInt(lines[0]) == Some(CreateGraph(lines).value.ants)
  {
    var ants := ParseInt(lines[0]);
    if CreateGraph(lines).Success? {
      var rest := lines[1..];
      var d := FirstDash(rest);
      var g := RoomSection(rest[..d], EmptyGraph(ants.value)).value;
      TunnelsAccepted(rest[d..], g);
    }
  }

  /** The tunnel loop keeps a checked room section accepted: it only appends tunnels between known rooms. */
  lemma TunnelsAccepted(lines: seq<string>, g: FarmGraph)
    requires g.ants > 0 && g.start.Some? && g.end.Some? && WellFormed(g) && g.positions == []
    ensures TunnelSection(lines, g).Success? ==>
      Accepted(TunnelSection(lines, g).value) && TunnelSection(lines, g).value.ants == g.ants
  {
    if TunnelSection(lines, g).Success? {
      var r := TunnelSection(lines, g).value;
      WellFormedIgnoresPositions(g, r.positions);
      assert r == g.(positions := r.positions);
    }
  }

  /** Well-formedness is about rooms only: replacing the tunnels keeps it. */
  lemma WellFormedIgnoresPositions(g: FarmGraph, positions: seq<Position>)
    requires WellFormed(g)
    ensures WellFormed(g.(positions := positions))
  {
    var h := g.(positions := positions);
    assert forall room :: Registered(g, room) == Registered(h, room);
  }

  // -------------------------------------------------------------- examples

  /** A room line with a dash-free name and non-negative coordinates holds no dash, marked or not. */
  lemma DashFreeRoomLine(room: Room)
    requires '-' !in room.name && room.x >= 0 && room.y >= 0
    ensures '-' !in RoomLine(room)
    ensures '-' !in "##start" + RoomLine(room) && '-' !in "##end" + RoomLine(room)
  {
    var xs, ys := NatToString(room.x), NatToString(room.y);
    assert '-' !in xs by {
      assert forall i :: 0 <= i < |xs| ==> IsDigit(xs[i]);
    }
    assert '-' !in ys by {
      assert forall i :: 0 <= i < |ys| ==> IsDigit(ys[i]);
    }
    var line := RoomLine(room);
    assert '-' !in "##start" && '-' !in "##end";
    assert forall i :: 0 <= i < |"##start" + line| ==> ("##start" + line)[i] == (if i < 7 then "##start"[i] else line[i - 7]);
    assert forall i :: 0 <= i < |"##end" + line| ==> ("##end" + line)[i] == (if i < 5 then "##end"[i] else line[i - 5]);
  }

  /** The room loop after an accepted first line goes on with the rest. */
  lemma RoomSectionStep(lines: seq<string>, g: FarmGraph)
    requires |lines| > 0 && CheckRooms(lines[0], g).Success?
    ensures RoomSection(lines, g) == RoomSection(lines[1..], CheckRooms(lines[0], g).value)
  {
  }

  /** CreateGraph once its room section has been read: the start/end check, then the tunnels. */
  lemma CreateGraphAfterRooms(lines: seq<string>, g: FarmGraph)
    requires |lines| > 0 && ParseInt(lines[0]).Some? && ParseInt(lines[0]).value > 0
    requires var rest := lines[1..];
      RoomSection(rest[..FirstDash(rest)], EmptyGraph(ParseInt(lines[0]).value)) == Success(g)
    ensures CheckPositions(g).Some? ==> CreateGraph(lines) == Failure(CheckPositions(g).value)
    ensures var rest := lines[1..];
      CheckPositions(g).None? && FirstDash(rest) < |rest| ==> CreateGraph(lines) == TunnelSection(rest[FirstDash(rest)..], g)
    ensures var rest := lines[1..];
      CheckPositions(g).None? && FirstDash(rest) == |rest| ==> CreateGraph(lines) == Failure(InvalidDataOrNoStartRoomFound)
  {
  }

  /** A start line then an end line, each with a valid room, make a complete room section. */
  lemma StartEndSection(n: int, a: Room, b: Room)
    requires ValidName(a.name) && ValidName(b.name)
    ensures RoomSection(["##start" + RoomLine(a), "##end" + RoomLine(b)], EmptyGraph(n)) ==
      Success(FarmGraph(n, Some(a), Some(b), [], [], map[a.name := a, b.name := b]))
  {
    var rooms := ["##start" + RoomLine(a), "##end" + RoomLine(b)];
    var g0 := EmptyGraph(n);
    var g1 := g0.(start := Some(a), roomNames := map[a.name := a]);
    StartLine(a, g0);
    assert g0.roomNames[a.name := a] == map[a.name := a];
    EndLine(b, g1);
    RoomSectionStep(rooms, g0);
    assert rooms[1..] == [rooms[1]] && rooms[1..][1..] == [];
    RoomSectionStep(rooms[1..], g1);
  }

  /** A single tunnel line between two filed, dash-free names that is not a comment adds that tunnel. */
  lemma OneTunnel(x: string, y: string, g: FarmGraph)
    requires x in g.roomNames && y in g.roomNames && '-' !in x && '-' !in y
    requires |x| > 0 && !HasPrefix(x, "#")
    ensures TunnelSection([x + "-" + y], g) ==
      Success(g.(positions := g.positions + [Position(g.roomNames[x], g.roomNames[y])]))
  {
    var line := x + "-" + y;
    assert !Skipped(line) by {
      assert line[0] == x[0] && x[..1] == [x[0]] && line[..1] == [line[0]];
    }
    ParsePositionOfLine(x, y, g.roomNames);
    assert [line][1..] == [];
  }

  /**
   * The smallest complete farm, written out line by line: the ant count, a
   * start room, an end room and the tunnel between them. It is read back
   * completely, and only the start and end rooms are filed.
   */
  lemma TwoRoomFarm(count: string, a: Room, b: Room)
    requires ParseInt(count).Some? && ParseInt(count).value > 0
    requires ValidName(a.name) && ValidName(b.name) && a.name != b.name
    requires !HasPrefix(a.name, "#") && '-' !in a.name && '-' !in b.name
    requires a.x >= 0 && a.y >= 0 && b.x >= 0 && b.y >= 0
    ensures CreateGraph([count, "##start" + RoomLine(a), "##end" + RoomLine(b), a.name + "-" + b.name]) ==
      Success(FarmGraph(ParseInt(count).value, Some(a), Some(b), [], [Position(a, b)], map[a.name := a, b.name := b]))
  {
    var n := ParseInt(count).value;
    var l0, l1, t := "##start" + RoomLine(a), "##end" + RoomLine(b), a.name + "-" + b.name;
    var lines := [count, l0, l1, t];
    var rest := [l0, l1, t];
    assert lines[1..] == rest;
    var g2 := FarmGraph(n, Some(a), Some(b), [], [], map[a.name := a, b.name := b]);
    assert FirstDash(rest) == 2 && rest[..2] == [l0, l1] && rest[2..] == [t] by {
      DashFreeRoomLine(a);
      DashFreeRoomLine(b);
      assert t[|a.name|] == '-';
      FirstDashAt(rest, 2);
    }
    assert RoomSection(rest[..2], EmptyGraph(n)) == Success(g2) by {
      StartEndSection(n, a, b);
    }
    assert TunnelSection(rest[2..], g2) == Success(g2.(positions := [Position(a, b)])) by {
      OneTunnel(a.name, b.name, g2);
      assert g2.roomNames[a.name] == a && g2.roomNames[b.name] == b;
      assert g2.positions + [Position(a, b)] == [Position(a, b)];
    }
    CreateGraphAfterRooms(lines, g2);
  }

  /** The missing end room is reported before the missing tunnel section. */
  lemma NoEndBeforeNoTunnels(count: string, a: Room)
    requires ParseInt(count).Some? && ParseInt(count).value > 0
    requires ValidName(a.name) && '-' !in a.name && a.x >= 0 && a.y >= 0
    ensures CreateGraph([count, "##start" + RoomLine(a)]) == Failure(InvalidDataOrNoEndRoomFound)
  {
    var n := ParseInt(count).value;
    var rest := ["##start" + RoomLine(a)];
    var lines := [count, rest[0]];
    assert lines[1..] == rest;
    DashFreeRoomLine(a);
    assert FirstDash(rest) == 1;
    var g0 := EmptyGraph(n);
    var g1 := g0.(start := Some(a), roomNames := map[a.name := a]);
    StartLine(a, g0);
    assert RoomSection(rest[..1], g0) == Success(g1) by {
      assert rest[..1] == rest && rest[1..] == [];
    }
    CreateGraphAfterRooms(lines, g1);
  }
}
